=== FILE: README.md ===
# A Dafny model of the awesome-webapp ORM and request routing

This project models the pure logic of a small asyncio web application. It
covers two parts.

The first is the ORM in `orm.py`:
- field declarations;
- how `ModeMetaclass` turns a class's attributes into a table schema and four
  SQL templates;
- value lookup with defaults written back onto a record;
- the `(sql, args)` statements that `find`, `findAll`, `findNumber`, `save`,
  `update` and `remove` send;
- the `?` to `%s` placeholder rewrite done before execution.

The second is request routing in `coroweb.py`:
- the `@get` / `@post` tags;
- how a view function's parameters are classified;
- the guard in `add_route`;
- how `RequestHandler.__call__` builds the keyword arguments of the call once
  the request body has been parsed.

The modules follow the program:
- `Wrappers` holds `Option` and `Result`.
- `Text` holds `str.join`, back-quoting, `create_args_string` and the
  placeholder rewrite.
- `Fields` holds column values, defaults and the five field shapes.
- `Schema` holds `ModeMetaclass.__new__`.
- `Records` holds the model instance and its CRUD statements.
- `Signature` holds the `inspect`-based classifiers.
- `Routing` holds the decorators, `add_route` and argument binding.

Modelling choices:
- **Declarations.** A class body is an ordered sequence of attribute
  declarations, as `attrs.items()` yields them.
- **Non-Field attributes.** The metaclass only uses their truthiness and their
  `str()`, so that is all that is kept of them.
- **Absent strings.** Python's falsy strings and `None` are both written `""`
  where the code only tests truthiness. This applies to `where`, `orderBy` and
  the primary key tracked by the scan. `Field.name` is different: it is an
  `Option<string>`, because `Field.__str__` prints `None` as such. Only
  `Fields.ColumnName`, which models `Field.name or attr`, treats both `None` and
  `""` as falsy.
- **Statements.** A CRUD operation returns the statement it would execute,
  together with the updated record where it writes defaults back.
- **Errors.** `ModeMetaclass` raises `StandardError`, which does not exist in
  Python 3. The lookup of that name fails, so class creation still aborts, with
  a `NameError`. The model keeps the abort as a `Failure` naming the cause the
  code meant to report.
- **Quirks kept as written.**
  - `__select__` and `__insert__` name columns by attribute.
  - `__update__` uses `Field.name or attribute` (`Schema.UpdateSql`).
  - An entity whose only field is its key gets a SELECT and an INSERT with a
    dangling comma, and an UPDATE with an empty SET list
    (`Schema.KeyOnlyTemplates`, `Schema.KeyOnlyUpdate`).
- **Request parsing.** Parsing the request body or query string is an input,
  `Routing.Body`. It is either no map, a parsed map, or a rejection carrying
  the bad-request text.

## Model

| member | source | states |
|---|---|---|
| Text.CreateArgsString | orm.py:65-69 | `num` question marks joined by commas: empty for `num <= 0`, length `2*num-1` otherwise, exactly `num` marks, `?` at even and `,` at odd positions |
| Text.QuoteAll | orm.py:140 | every attribute name back-quoted, one per name, in order; quoting adds no character other than the back-quote, so the quoted names hold exactly the placeholders the names held |
| Text.ToDriverPlaceholders | orm.py:35 | after the rewrite no `?` is left and each `?` has grown into the two characters of `%s` |
| Text.DriverPlaceholdersRoundTrip | orm.py:35 | on SQL without its own `%`, turning `%s` back into `?` recovers the statement: nothing but the markers changes |
| Text.DriverPlaceholdersKeepPlainText | orm.py:54 | text without placeholders reaches the driver unchanged |
| Text.DriverPlaceholdersConcat | orm.py:54 | the rewrite acts piece by piece on concatenated SQL |
| Fields.FieldShapes | orm.py:83-106 | storage types varchar(100)/boolean/bigint/real/text; Boolean and Text fields are never keys; default defaults None, False, 0, 0.0, None |
| Schema.NonKeyNames | orm.py:124-133 | a name is listed exactly when some declared Field attribute with that name is not a primary key |
| Schema.NonKeyNamesKeepOrder | orm.py:124-133 | declaration order is kept: the list for `a + b` is the list for `a` followed by the list for `b` |
| Schema.Step | orm.py:125-133 | one loop iteration maps a Field under its name to that Field and leaves every other mapping as it was, lists a non-key one or takes a key, and aborts on a second key |
| Schema.ScanAttrs | orm.py:118-133 | on success `__fields__` is the non-key list, `__mappings__` holds exactly the Field attributes; every listed field is mapped, a found key is a declared key; a failure is a duplicate-key error naming a key attribute |
| Schema.ScanMapsDeclaredFields | orm.py:124-127 | on distinct names, `__mappings__` maps every Field attribute to the Field declared under it, so column names and defaults come from the declaration |
| Schema.StepKeepsInvariant | orm.py:124-133 | one loop iteration keeps the key out of `__fields__`, every listed field mapped and non-key, and names distinct |
| Schema.ScanKeepsInvariant | orm.py:124-133 | the whole loop keeps that invariant on a namespace of distinct non-empty names |
| Schema.ScanKeyOutcome | orm.py:128-136 | the loop fails exactly when two or more Fields are primary keys; otherwise it has found a key exactly when there is one |
| Schema.DeriveSchema | orm.py:109-155 | `Model` itself is passed through untouched; an entity gets the table name, the non-key fields in order, a declared key, exactly the Field attributes as mappings, each mapped to its declared Field, the four rendered templates; every non-Field attribute not overwritten by the metaclass stays on the class, and only such attributes do |
| Schema.Remaining | orm.py:138-148 | the class keeps exactly the declared attributes that are neither popped Field attributes nor overwritten by the metaclass's own names |
| Schema.DeriveOutcome | orm.py:128-136 | no key aborts with "primary key not found", two or more abort with a duplicate-key error, exactly one yields a consistent schema |
| Schema.DerivedKeyIsDeclaredKey | orm.py:128-131 | with one key attribute, `__primary_key__` is that attribute |
| Schema.LookupFindsDeclaration | orm.py:115 | `attrs.get(name)` finds the declared value of a name |
| Schema.DeclaredTableName | orm.py:115 | a declared `__table__` string names the table when non-empty, the class name otherwise |
| Schema.FieldTableName | orm.py:115 | a Field declared as `__table__` is truthy, so the table is named by its `str()` |
| Fields.Describe | orm.py:79-80 | `Field.__str__`: class name, `, `, column type and `:`, then the column name (or `None`) and nothing else |
| Schema.DefaultTableName | orm.py:115 | without a `__table__` declaration the table is named after the class |
| Schema.SelectPlaceholders | orm.py:151 | the SELECT template has no placeholder |
| Schema.InsertPlaceholders | orm.py:152 | the INSERT template has one placeholder per non-key field plus one for the key |
| Schema.AssignmentsPlaceholders | orm.py:153 | the SET list has one placeholder per non-key field |
| Schema.UpdatePlaceholders | orm.py:153 | the UPDATE template has one placeholder per non-key field plus one for the key |
| Schema.DeletePlaceholders | orm.py:154 | the DELETE template has exactly one placeholder |
| Schema.TemplatePlaceholders | orm.py:151-154 | placeholder counts of a rendered schema: 0, fields+1, fields+1, 1 |
| Schema.KeyOnlyTemplates | orm.py:151-152 | with no non-key field the SELECT and INSERT templates carry an empty column list after a comma |
| Schema.KeyOnlyUpdate | orm.py:153 | with no non-key field the UPDATE template carries an empty SET list |
| Records.GetValue | orm.py:172-173 | `getValue` reads a set attribute as stored and an unset one as None, without raising; `Update` and `Remove` read their arguments with it |
| Records.GetValueOrDefault | orm.py:175-183 | a set value is returned with the record unchanged; an unset value takes the Field default (produced when callable) and stores it; a None default returns None without a write; an unset non-Field key is a KeyError; the record is either unchanged or has only this key set to the returned value |
| Records.DefaultMaterializedOnce | orm.py:175-183 | once a non-None value was returned, asking again returns the same value without touching the record, so a producer default that yielded a value is not called again |
| Records.NoneDefaultProducedAgain | orm.py:176-182 | a producer that yields None stores None, which reads as unset, so the next lookup produces the default again |
| Records.SaveArgsSpec | orm.py:259-260 | looking up distinct mapped keys in turn yields, key by key, what a single lookup on the original record yields; each key then holds its value; other keys and already-set keys keep theirs, and no key outside the list is added or removed |
| Records.SaveKeysDistinct | orm.py:259-260 | the keys `save` looks up are distinct and all mapped |
| Records.Save | orm.py:257-263 | INSERT with the defaulted values of the non-key fields in order, then the key, which the record now holds; values already set and non-field keys are untouched, and no non-field key is added or removed; on a rendered schema the INSERT has as many placeholders as arguments |
| Records.Update | orm.py:265-268 | UPDATE with the current values of the non-key fields in order, then the key, no defaults; on a rendered schema as many placeholders as arguments |
| Records.Remove | orm.py:272-274 | DELETE with the key's current value as the only argument, matching the template's one placeholder on a rendered schema |
| Records.Find | orm.py:242-252 | the SELECT template plus `where` on the back-quoted key, argument `[pk]`, one row fetched, one placeholder on a rendered schema; the row handed back is the first one, or None when there is none (helper `Records.FirstRow`) |
| Records.CrudPlaceholdersMatchArgs | orm.py:249-274 | the statements of save, update, remove and find carry exactly as many arguments as placeholders |
| Records.AppendClause | orm.py:195-206 | appending a keyword and its text to the word list adds ` keyword text` to the joined SQL, and nothing when the text is empty |
| Records.SelectWordsJoined | orm.py:195-206 | the words up to ORDER BY join into the SELECT template, then ` where ...` if given, then ` order by ...` if given |
| Records.FindAllWords | orm.py:195-220 | with the limit words appended, the joined SQL ends in ` limit <marks>` after the other clauses, or in nothing without a limit |
| Records.FindAll | orm.py:186-220 | WHERE, ORDER BY and LIMIT are appended only when given and in that order; an int limit adds ` limit ?` and one argument, a pair adds ` limit ?,?` and both values in order, any other limit is a ValueError; all rows are fetched |
| Records.FindAllPlaceholdersMatchArgs | orm.py:195-220 | when the WHERE text has one placeholder per given argument, the built statement has as many placeholders as arguments, for every accepted limit |
| Records.FindNumber | orm.py:225-238 | a count over the back-quoted table with an optional WHERE, given arguments (None sent as empty), one row fetched |
| Records.FindNumberPlaceholdersMatchArgs | orm.py:234-238 | when the WHERE text has one placeholder per given argument, the count query has as many placeholders as arguments |
| Records.DriverSql | orm.py:35 | the SQL sent to the driver has no `?`, grows by one per placeholder, and maps back to the statement when it had no `%` |
| Records.Fetch | orm.py:36-39 | with a size, a prefix of the rows no longer than the size, all rows when fewer; without a size, all rows |
| Signature.NamedKwArgs | coroweb.py:50-57 | a name is listed exactly when a keyword-only parameter has it |
| Signature.RequiredKwArgs | coroweb.py:40-48 | a name is listed exactly when a keyword-only parameter without default has it |
| Signature.NamedKwArgsAppend | coroweb.py:40-57 | both lists follow declaration order: the list of `a + b` is the list of `a` followed by that of `b` |
| Signature.RequiredAmongNamed | coroweb.py:40-57 | the required names are a subsequence of the named ones |
| Signature.RequiredAreNamedWithoutDefault | coroweb.py:40-48 | the required names are the named ones of the parameters without default |
| Signature.HasNamedKwArg | coroweb.py:59-63 | true exactly when some parameter is keyword-only |
| Signature.HasNamedIffSomeNamed | coroweb.py:50-63 | having a named keyword argument is the named list being non-empty |
| Signature.HasVarKwArg | coroweb.py:65-69 | true exactly when some parameter is `**kw` |
| Signature.RequestScan | coroweb.py:74-85 | the loop fails exactly when a positional parameter not named `request` comes after a `request` (or one already seen), and otherwise reports whether one was seen |
| Signature.HasRequestArg | coroweb.py:71-85 | ValueError exactly when some parameter that can be bound by position follows `request`; otherwise true exactly when a parameter is named `request` |
| Signature.MisplacedFromStart | coroweb.py:80-84 | the loop's failure condition, read from the start, is "a `request` at i and a positional non-request parameter at j > i" |
| Signature.RequestLastAccepted | coroweb.py:80-84 | a `request` followed only by `*args`, keyword-only parameters and `**kw` is accepted whenever the parameters before it are |
| Routing.Get | coroweb.py:10-18 | the wrapper reports the same parameters and is tagged GET with the given path (helper `Routing.Tagged`); with a path it registers, under GET and that path, exactly when its `request` parameter is placed correctly, and without one it is refused |
| Routing.Post | coroweb.py:21-29 | as `Get`, tagged and registered under POST |
| Routing.AddRoute | coroweb.py:172-184 | a function missing either tag is refused; otherwise registration fails exactly when `request` is misplaced, and the route carries the tags and a classification that describes the parameters, with the required and named lists in declaration order |
| Routing.DecoratedRegisters | coroweb.py:172-176 | a decorated function with a path registers exactly when its `request` placement is valid, under the method of the last decorator |
| Routing.CollectArgs | coroweb.py:136-154 | without a parsed map the arguments are exactly `match_info`; with one, route values win, other keys come from the body and are cut to the named ones when there is no `**kw` (helper `Routing.KeepNamed`); a rejected body is a bad request only if the body is looked at |
| Routing.FirstMissing | coroweb.py:158-161 | none missing exactly when every required name is present; otherwise the first absent one in declaration order |
| Routing.Bind | coroweb.py:136-161 | the call receives every required argument, `request` when declared, the route's values, and every other body argument with its parsed value; a bad request is the parsing rejection or "Missing argument: " naming the first required argument, in declaration order, that is absent |
| Routing.CallIffRequiredPresent | coroweb.py:156-161 | the view function is called exactly when every required argument is among the collected ones or is `request` |
| Routing.OnlyNamedReachCall | coroweb.py:143-157 | without `**kw`, exactly the named body arguments, the route's values and `request` reach the call, each named body argument with its parsed value |
| Routing.VarKwKeepsAll | coroweb.py:150-157 | with `**kw`, every body argument reaches the call, with its own value unless the route or `request` overrides it |

## Left out

- Connection pool, cursors, commit and rollback (`create_pool`, `select`, `execute` apart from the placeholder rewrite and the fetch size): aiomysql I/O and concurrency. The string port `'3306'` and the misspelt `mainsize` key in `create_pool` are configuration of that I/O.
- Logging, including the rowcount warnings of `save`, `update` and `remove`, which do not change any result.
- `Model`'s dict subclassing and the `__getattr__` / `__setattr__` magic: a record is an explicit map from attribute names to values. So an attribute whose name is also a method of `dict` or `Model`, which `getattr` would resolve to that method, is not modelled.
- Building model instances from result rows (`cls(**r)`): rows are records already.
- `Records.FindAll`: returns a fresh argument list; the original also appends the limit values to the caller's own `args` list.
- `Records.FindNumber`: returns the statement; reading `_num_` from the row is left with the executor.
- Column values of type float are exact reals: the ORM only stores and passes them, so rounding never matters here.
- Producer defaults are pure functions of nothing (`() -> Value`); one that returns different values on different calls (a clock, a random id) is not modelled. The model does show that a producer runs at most once per record and key until it yields a value other than None; one that yields None is stored as None and runs again on the next lookup.
- The `StandardError` raises: the model keeps the intended message (duplicate key / key not found) rather than the `NameError` Python 3 raises while evaluating them.
- Body and query-string parsing in `RequestHandler.__call__` (coroweb.py:107-134): aiohttp JSON and form parsing and `parse_qs`. The misspelt `startwith` at coroweb.py:121, which raises `AttributeError` on a non-JSON POST, is part of that parsing.
- The view function's own execution and the aiohttp responses: the outcome is the keyword map it would be called with or the bad-request text.
- `add_routes`, `add_static`, module scanning and the coroutine wrapping in `add_route`: reflection and framework plumbing. The wrapping keeps the signature, so the classification is unaffected.
- handlers.py (cookies with SHA-1 and wall-clock time, regular-expression checks, database lookups) and test.py (route declarations without logic) are not part of this model.

=== FILE: fields.dfy ===
/** Column descriptors (`Field` and its five shapes in orm.py) and the
    values a mapped record holds. */
module Fields {
  import opened Wrappers

  /** The scalar values a record, a default or a statement argument can hold;
      `Null` is Python's `None`. */
  datatype Value = Null | Bool(b: bool) | Int(i: int) | Float(x: real) | Str(s: string)

  /** A column default: a literal (`Literal(Null)` is "no default") or a
      nullary producer such as `next_id` or `time.time`, called when used. */
  datatype Default = Literal(value: Value) | Producer(produce: () -> Value) {

    /** `default is None` */
    predicate IsNone() {
      Literal? && value.Null?
    }

    /** `default() if callable(default) else default` */
    function Materialize(): Value {
      match this
      case Literal(v) => v
      case Producer(p) => p()
    }
  }

  /** Which Python class built the descriptor; only its name is observable. */
  datatype FieldClass = BaseField | StringKind | BooleanKind | IntegerKind | FloatKind | TextKind

  datatype Field = Field(cls: FieldClass, name: Option<string>, columnType: string,
                         primaryKey: bool, default: Default)

  function ClassName(c: FieldClass): string {
    match c
    case BaseField => "Field"
    case StringKind => "StringField"
    case BooleanKind => "BooleanField"
    case IntegerKind => "IntegerField"
    case FloatKind => "FloatField"
    case TextKind => "TextField"
  }

  /** `Field(name, column_type, primary_key, default)` */
  function PlainField(name: Option<string>, columnType: string, primaryKey: bool, default: Default): Field {
    Field(BaseField, name, columnType, primaryKey, default)
  }

  function StringField(name: Option<string> := None, primaryKey: bool := false,
                       default: Default := Literal(Null), ddl: string := "varchar(100)"): Field {
    Field(StringKind, name, ddl, primaryKey, default)
  }

  function BooleanField(name: Option<string> := None, default: Default := Literal(Bool(false))): Field {
    Field(BooleanKind, name, "boolean", false, default)
  }

  function IntegerField(name: Option<string> := None, primaryKey: bool := false,
                        default: Default := Literal(Int(0))): Field {
    Field(IntegerKind, name, "bigint", primaryKey, default)
  }

  function FloatField(name: Option<string> := None, primaryKey: bool := false,
                      default: Default := Literal(Float(0.0))): Field {
    Field(FloatKind, name, "real", primaryKey, default)
  }

  function TextField(name: Option<string> := None, default: Default := Literal(Null)): Field {
    Field(TextKind, name, "text", false, default)
  }

  /** The column written for attribute `attr` in an UPDATE: `field.name or attr`. */
  function ColumnName(f: Field, attr: string): string {
    if f.name.Some? && f.name.value != "" then f.name.value else attr
  }

  /** `Field.__str__`: `'<class>, <column_type>:<name>'`, `None` printed as such. */
  function Describe(f: Field): (r: string)
    ensures ClassName(f.cls) + ", " + f.columnType + ":" <= r
    ensures f.name.Some? ==> |f.name.value| <= |r| && r[|r| - |f.name.value|..] == f.name.value
    ensures f.name.None? ==> 4 <= |r| && r[|r| - 4..] == "None"
    ensures |r| == |ClassName(f.cls)| + 2 + |f.columnType| + 1 + (match f.name case Some(n) => |n| case None => 4)
  {
    ClassName(f.cls) + ", " + f.columnType + ":" + (match f.name case Some(n) => n case None => "None")
  }

  /** The shapes fix the storage type; only the string, integer and float
      shapes can be declared primary key, and only on request; their defaults
      are None, False, 0, 0.0 and None. */
  lemma FieldShapes(name: Option<string>, pk: bool, d: Default)
    ensures StringField(name, pk, d).columnType == "varchar(100)"
    ensures BooleanField(name, d).columnType == "boolean" && !BooleanField(name, d).primaryKey
    ensures TextField(name, d).columnType == "text" && !TextField(name, d).primaryKey
    ensures IntegerField(name, pk, d).columnType == "bigint" && IntegerField(name, pk, d).primaryKey == pk
    ensures FloatField(name, pk, d).columnType == "real" && FloatField(name, pk, d).primaryKey == pk
    ensures !StringField().primaryKey && !IntegerField().primaryKey && !FloatField().primaryKey
    ensures StringField().default.IsNone() && TextField().default.IsNone()
    ensures BooleanField().default.Materialize() == Bool(false)
    ensures IntegerField().default.Materialize() == Int(0)
    ensures FloatField().default.Materialize() == Float(0.0)
  {
  }
}

=== FILE: records.dfy ===
/** `Model` (orm.py): a mapped record, the lookup of attribute values with
    defaults written back, and the statements the CRUD operations hand to the
    executor. Each operation returns the `(sql, args)` it would send instead
    of sending it; the executor itself is reduced to the placeholder rewrite
    and the row fetch. */
module Records {
  import opened Wrappers
  import opened Text
  import opened Fields
  import opened Schema

  /** A model instance: `Model` is a dict from attribute name to value. */
  type Record = map<string, Value>

  datatype OrmError = KeyError(key: string) | InvalidLimit

  /** What an operation sends: `select(sql, args, size)` (`size == 0` fetches
      every row) or `execute(sql, args)`. */
  datatype Statement = Query(sql: string, args: seq<Value>, size: nat) | Command(sql: string, args: seq<Value>)

  /** `getValue(key)`, i.e. `getattr(self, key, None)`: an attribute never
      set reads as None rather than raising. */
  function GetValue(rec: Record, key: string): (v: Value)
    ensures key !in rec ==> v == Null
    ensures key in rec ==> v == rec[key]
  {
    if key in rec then rec[key] else Null
  }

  /** `getValueOrDefault(key)` once the Field of `key` is known. */
  function ValueOrDefault(f: Field, rec: Record, key: string): (r: (Value, Record))
    ensures r.1 == rec || r.1 == rec[key := r.0]
  {
    var v := GetValue(rec, key);
    if !v.Null? then (v, rec)
    else if f.default.IsNone() then (Null, rec)
    else
      var d := f.default.Materialize();
      (d, rec[key := d])
  }

  /** `getValueOrDefault(key)`: a set value is returned untouched; an unset
      one falls back to the Field's default, which is then stored on the
      record; an unset attribute that is not a Field is a `KeyError`. */
  function GetValueOrDefault(s: Schema, rec: Record, key: string): (r: Result<(Value, Record), OrmError>)
    ensures !GetValue(rec, key).Null? ==> r == Success((GetValue(rec, key), rec))
    ensures r.Failure? <==> GetValue(rec, key).Null? && key !in s.mappings
    ensures r.Failure? ==> r.error == KeyError(key)
    ensures GetValue(rec, key).Null? && key in s.mappings && s.mappings[key].default.IsNone() ==>
      r == Success((Null, rec))
    ensures GetValue(rec, key).Null? && key in s.mappings && !s.mappings[key].default.IsNone() ==>
      r.Success? && r.value.0 == s.mappings[key].default.Materialize()
    ensures r.Success? ==> GetValue(r.value.1, key) == r.value.0
    ensures r.Success? ==> forall k :: k != key ==> GetValue(r.value.1, k) == GetValue(rec, k)
    ensures r.Success? ==> r.value.1 == rec || r.value.1 == rec[key := r.value.0]
  {
    if !GetValue(rec, key).Null? then Success((GetValue(rec, key), rec))
    else if key !in s.mappings then Failure(KeyError(key))
    else Success(ValueOrDefault(s.mappings[key], rec, key))
  }

  /** A materialised default is looked up, not produced again: once a lookup
      has returned a value other than None, repeating it returns the same
      value and leaves the record as it is. */
  lemma DefaultMaterializedOnce(s: Schema, rec: Record, key: string)
    requires GetValueOrDefault(s, rec, key).Success?
    requires !GetValueOrDefault(s, rec, key).value.0.Null?
    ensures var (v, rec') := GetValueOrDefault(s, rec, key).value;
      GetValueOrDefault(s, rec', key) == Success((v, rec'))
  {
  }

  /** A producer that yields None leaves the attribute unset (`None` is
      stored), so the next lookup produces the default again. */
  lemma NoneDefaultProducedAgain(s: Schema, rec: Record, key: string)
    requires GetValue(rec, key).Null? && key in s.mappings
    requires !s.mappings[key].default.IsNone() && s.mappings[key].default.Materialize().Null?
    ensures GetValueOrDefault(s, rec, key).Success?
    ensures var (v, rec') := GetValueOrDefault(s, rec, key).value;
      v.Null? && GetValue(rec', key).Null? && key in rec'
  {
  }

  /** `list(map(self.getValueOrDefault, keys))`, left to right, each lookup
      seeing the record as the previous ones left it. */
  function SaveArgs(s: Schema, rec: Record, keys: seq<string>): (seq<Value>, Record)
    requires forall i :: 0 <= i < |keys| ==> keys[i] in s.mappings
    decreases |keys|
  {
    if |keys| == 0 then ([], rec)
    else
      var (v, rec1) := ValueOrDefault(s.mappings[keys[0]], rec, keys[0]);
      var (rest, rec2) := SaveArgs(s, rec1, keys[1..]);
      ([v] + rest, rec2)
  }

  /** What a lookup with default yields for one key of `rec`. */
  function Looked(s: Schema, rec: Record, key: string): Value
    requires key in s.mappings
  {
    var d := s.mappings[key].default;
    if !GetValue(rec, key).Null? then GetValue(rec, key)
    else if d.IsNone() then Null
    else d.Materialize()
  }

  /** The lookups return, for each key, what a lookup on the original record
      would; they leave the key holding that value, and touch neither other
      keys nor keys that were already set. */
  lemma {:induction false} SaveArgsSpec(s: Schema, rec: Record, keys: seq<string>)
    requires forall i :: 0 <= i < |keys| ==> keys[i] in s.mappings
    requires Distinct(keys)
    ensures |SaveArgs(s, rec, keys).0| == |keys|
    ensures forall i :: 0 <= i < |keys| ==> SaveArgs(s, rec, keys).0[i] == Looked(s, rec, keys[i])
    ensures forall i :: 0 <= i < |keys| ==>
      SaveArgs(s, rec, keys).0[i] == GetValue(SaveArgs(s, rec, keys).1, keys[i])
    ensures forall k :: k !in keys ==> GetValue(SaveArgs(s, rec, keys).1, k) == GetValue(rec, k)
    ensures forall k :: !GetValue(rec, k).Null? ==> GetValue(SaveArgs(s, rec, keys).1, k) == GetValue(rec, k)
    ensures forall k :: k !in keys ==> (k in SaveArgs(s, rec, keys).1 <==> k in rec)
    decreases |keys|
  {
    if |keys| > 0 {
      var (v, rec1) := ValueOrDefault(s.mappings[keys[0]], rec, keys[0]);
      var tail := keys[1..];
      assert forall i :: 0 <= i < |tail| ==> tail[i] == keys[i + 1] && tail[i] != keys[0];
      SaveArgsSpec(s, rec1, tail);
      var (rest, rec2) := SaveArgs(s, rec1, tail);
      assert SaveArgs(s, rec, keys) == ([v] + rest, rec2);
      assert keys[0] !in tail;
      assert GetValue(rec2, keys[0]) == GetValue(rec1, keys[0]) == v;
      forall i | 1 <= i < |keys|
        ensures Looked(s, rec1, keys[i]) == Looked(s, rec, keys[i])
      {
        assert GetValue(rec1, keys[i]) == GetValue(rec, keys[i]);
      }
    }
  }

  /** The insert arguments: the non-key fields in order, then the key, all
      distinct and all mapped. */
  lemma SaveKeysDistinct(s: Schema)
    requires Consistent(s)
    ensures Distinct(s.fields + [s.primaryKey])
    ensures forall i :: 0 <= i < |s.fields + [s.primaryKey]| ==> (s.fields + [s.primaryKey])[i] in s.mappings
  {
    var keys := s.fields + [s.primaryKey];
    forall i, j | 0 <= i < j < |keys|
      ensures keys[i] != keys[j]
    {
      if j == |s.fields| {
        assert !s.mappings[s.fields[i]].primaryKey;
      }
    }
  }

  /** `save()`: every non-key field and then the key are looked up with their
      defaults, defaults are written back, and INSERT is run with the values in
      that order. The row count the driver reports is only logged. */
  function Save(s: Schema, rec: Record): (r: (Statement, Record))
    requires Consistent(s)
    ensures r.0.Command? && r.0.sql == s.insert
    ensures |r.0.args| == |s.fields| + 1
    ensures forall i :: 0 <= i < |s.fields| ==> r.0.args[i] == Looked(s, rec, s.fields[i])
    ensures r.0.args[|s.fields|] == Looked(s, rec, s.primaryKey)
    ensures forall i :: 0 <= i < |s.fields| ==> r.0.args[i] == GetValue(r.1, s.fields[i])
    ensures r.0.args[|s.fields|] == GetValue(r.1, s.primaryKey)
    ensures forall k :: !GetValue(rec, k).Null? ==> GetValue(r.1, k) == GetValue(rec, k)
    ensures forall k :: k !in s.mappings ==> GetValue(r.1, k) == GetValue(rec, k)
    ensures forall k :: k !in s.mappings ==> (k in r.1 <==> k in rec)
    ensures Rendered(s) && Unmarked(s) ==> Occurrences('?', r.0.sql) == |r.0.args|
  {
    TemplatePlaceholders(s);
    SaveKeysDistinct(s);
    var keys := s.fields + [s.primaryKey];
    SaveArgsSpec(s, rec, keys);
    var (args, rec') := SaveArgs(s, rec, keys);
    assert forall i :: 0 <= i < |s.fields| ==> keys[i] == s.fields[i];
    assert forall k :: k !in s.mappings ==> k !in keys;
    (Command(s.insert, args), rec')
  }

  /** `update()`: the current values of the non-key fields and then the key,
      without default substitution, for the UPDATE template. */
  function Update(s: Schema, rec: Record): (r: Statement)
    ensures r.Command? && r.sql == s.update
    ensures |r.args| == |s.fields| + 1
    ensures forall i :: 0 <= i < |s.fields| ==> r.args[i] == GetValue(rec, s.fields[i])
    ensures r.args[|s.fields|] == GetValue(rec, s.primaryKey)
    ensures Rendered(s) && Unmarked(s) ==> Occurrences('?', r.sql) == |r.args|
  {
    TemplatePlaceholders(s);
    Command(s.update, seq(|s.fields|, i requires 0 <= i < |s.fields| => GetValue(rec, s.fields[i]))
                      + [GetValue(rec, s.primaryKey)])
  }

  /** `remove()`: DELETE by the record's key. */
  function Remove(s: Schema, rec: Record): (r: Statement)
    ensures r.Command? && r.sql == s.delete && r.args == [GetValue(rec, s.primaryKey)]
    ensures Rendered(s) && Unmarked(s) ==> Occurrences('?', r.sql) == |r.args|
  {
    TemplatePlaceholders(s);
    Command(s.delete, [GetValue(rec, s.primaryKey)])
  }

  /** `find(pk)`: the SELECT template restricted to one key, fetching one row. */
  function Find(s: Schema, pk: Value): (r: Statement)
    ensures r.Query? && r.args == [pk] && r.size == 1
    ensures r.sql == s.select + " where " + Quote(s.primaryKey) + "=?"
    ensures Rendered(s) && Unmarked(s) ==> Occurrences('?', r.sql) == |r.args|
  {
    TemplatePlaceholders(s);
    KeyLookupMarks(s.select, s.primaryKey);
    Query(s.select + " where " + Quote(s.primaryKey) + "=?", [pk], 1)
  }

  /** ``where `pk`=?`` adds exactly one placeholder. */
  lemma KeyLookupMarks(select: string, pk: string)
    ensures '?' !in pk ==> Occurrences('?', select + " where " + Quote(pk) + "=?") == Occurrences('?', select) + 1
  {
    if '?' !in pk {
      assert '?' !in Quote(pk);
      NoOccurrences('?', Quote(pk));
      NoOccurrences('?', " where ");
      OccurrencesConcat('?', select, " where ");
      OccurrencesConcat('?', select + " where ", Quote(pk));
      EndsWithOneMark(select + " where " + Quote(pk));
    }
  }

  /** A statement built from a schema's template carries exactly as many
      arguments as the template has placeholders. */
  lemma CrudPlaceholdersMatchArgs(s: Schema, rec: Record, pk: Value)
    requires Consistent(s) && Rendered(s) && Unmarked(s)
    ensures Occurrences('?', Save(s, rec).0.sql) == |Save(s, rec).0.args|
    ensures Occurrences('?', Update(s, rec).sql) == |Update(s, rec).args|
    ensures Occurrences('?', Remove(s, rec).sql) == |Remove(s, rec).args|
    ensures Occurrences('?', Find(s, pk).sql) == |Find(s, pk).args|
  {
  }

  /** The `limit` keyword of `findAll`: `Scalar(Null)` is no limit, an int (or
      a bool, which Python counts as one) is a row count, a tuple an
      `(offset, count)` pair; any other object is rejected. */
  datatype LimitArg = Scalar(v: Value) | Tuple(items: seq<Value>) | OtherObject

  /** The clause words and arguments `findAll` appends for `limit`. */
  function LimitParts(limit: LimitArg): (r: Result<(seq<string>, seq<Value>), OrmError>)
    ensures limit == Scalar(Null) ==> r == Success(([], []))
    ensures limit.Scalar? && (limit.v.Int? || limit.v.Bool?) ==> r == Success((["limit", "?"], [limit.v]))
    ensures limit.Tuple? && |limit.items| == 2 ==> r == Success((["limit", "?,?"], limit.items))
    ensures r.Success? ==> limit == Scalar(Null) || (limit.Scalar? && (limit.v.Int? || limit.v.Bool?))
                           || (limit.Tuple? && |limit.items| == 2)
    ensures r.Failure? ==> r.error == InvalidLimit
  {
    match limit
    case Scalar(Null) => Success(([], []))
    case Scalar(Int(n)) => Success((["limit", "?"], [Int(n)]))
    case Scalar(Bool(b)) => Success((["limit", "?"], [Bool(b)]))
    case Tuple(items) => if |items| == 2 then Success((["limit", "?,?"], items)) else Failure(InvalidLimit)
    case _ => Failure(InvalidLimit)
  }

  /** ` <keyword> <text>` when `text` is given (truthy), nothing otherwise. */
  function Clause(keyword: string, text: string): string {
    if text == "" then "" else " " + keyword + " " + text
  }

  /** `sql.append(keyword); sql.append(text)` when `text` is given. */
  function ClauseParts(keyword: string, text: string): seq<string> {
    if text != "" then [keyword, text] else []
  }

  lemma {:induction false} JoinAppendPair(sep: string, parts: seq<string>, a: string, b: string)
    requires |parts| > 0
    ensures Join(sep, parts + [a, b]) == Join(sep, parts) + (sep + a + sep + b)
    decreases |parts|
  {
    if |parts| == 1 {
      assert (parts + [a, b])[1..] == [a, b];
      assert Join(sep, [a, b]) == a + sep + Join(sep, [b]);
    } else {
      assert (parts + [a, b])[1..] == parts[1..] + [a, b];
      JoinAppendPair(sep, parts[1..], a, b);
    }
  }

  /** Joining the clause words with spaces appends the clause text. */
  lemma AppendClause(parts: seq<string>, keyword: string, text: string)
    requires |parts| > 0
    ensures Join(" ", parts + ClauseParts(keyword, text)) == Join(" ", parts) + Clause(keyword, text)
  {
    if text != "" {
      JoinAppendPair(" ", parts, keyword, text);
    } else {
      assert parts + ClauseParts(keyword, text) == parts;
    }
  }

  /** `findAll(where, args, orderBy=..., limit=...)`: the SELECT template
      followed by WHERE, ORDER BY and LIMIT, each only when given and always
      in that order; limit values are appended to the arguments. */
  function FindAll(s: Schema, where: string, args: Option<seq<Value>>, orderBy: string, limit: LimitArg)
    : (r: Result<Statement, OrmError>)
    ensures r.Failure? <==> !(limit == Scalar(Null) || (limit.Scalar? && (limit.v.Int? || limit.v.Bool?))
                              || (limit.Tuple? && |limit.items| == 2))
    ensures r.Failure? ==> r.error == InvalidLimit
    ensures r.Success? ==> r.value.Query? && r.value.size == 0
    ensures r.Success? && limit == Scalar(Null) ==>
      r.value.sql == s.select + Clause("where", where) + Clause("order by", orderBy)
      && r.value.args == args.GetOr([])
    ensures r.Success? && limit.Scalar? && (limit.v.Int? || limit.v.Bool?) ==>
      r.value.sql == s.select + Clause("where", where) + Clause("order by", orderBy) + " limit ?"
      && r.value.args == args.GetOr([]) + [limit.v]
    ensures r.Success? && limit.Tuple? ==>
      r.value.sql == s.select + Clause("where", where) + Clause("order by", orderBy) + " limit ?,?"
      && r.value.args == args.GetOr([]) + limit.items && |limit.items| == 2
  {
    var (words, extra) :- LimitParts(limit);
    FindAllWords(s.select, where, orderBy, words);
    LimitClauses();
    Success(Query(Join(" ", SelectWords(s.select, where, orderBy) + words), args.GetOr([]) + extra, 0))
  }

  /** The two LIMIT clauses `findAll` can append. */
  lemma LimitClauses()
    ensures Clause("limit", "?") == " limit ?"
    ensures Clause("limit", "?,?") == " limit ?,?"
  {
  }

  /** The word list `findAll` builds before the limit. */
  function SelectWords(select: string, where: string, orderBy: string): seq<string> {
    [select] + ClauseParts("where", where) + ClauseParts("order by", orderBy)
  }

  /** Joining the words of `findAll` yields the clauses in order, the limit last. */
  lemma FindAllWords(select: string, where: string, orderBy: string, words: seq<string>)
    requires words == [] || (|words| == 2 && words[1] != "")
    ensures Join(" ", SelectWords(select, where, orderBy) + words) ==
      select + Clause("where", where) + Clause("order by", orderBy)
      + (if words == [] then "" else Clause(words[0], words[1]))
  {
    var head := SelectWords(select, where, orderBy);
    SelectWordsJoined(select, where, orderBy);
    if words == [] {
      assert head + words == head;
    } else {
      LimitWordsJoined(head, words);
    }
  }

  /** The two limit words join as one more clause. */
  lemma LimitWordsJoined(head: seq<string>, words: seq<string>)
    requires |head| > 0 && |words| == 2 && words[1] != ""
    ensures Join(" ", head + words) == Join(" ", head) + Clause(words[0], words[1])
  {
    assert words == ClauseParts(words[0], words[1]);
    AppendClause(head, words[0], words[1]);
  }

  lemma SelectWordsJoined(select: string, where: string, orderBy: string)
    ensures Join(" ", SelectWords(select, where, orderBy)) ==
      select + Clause("where", where) + Clause("order by", orderBy)
  {
    var p1 := [select] + ClauseParts("where", where);
    AppendClause([select], "where", where);
    AppendClause(p1, "order by", orderBy);
  }

  /** With a WHERE fragment holding one placeholder per given argument and an
      ORDER BY fragment holding none, the statement `findAll` builds has as
      many placeholders as arguments. */
  lemma FindAllPlaceholdersMatchArgs(s: Schema, where: string, args: seq<Value>, orderBy: string, limit: LimitArg)
    requires Occurrences('?', s.select) == 0
    requires Occurrences('?', where) == |args| && '?' !in orderBy
    requires FindAll(s, where, Some(args), orderBy, limit).Success?
    ensures Occurrences('?', FindAll(s, where, Some(args), orderBy, limit).value.sql)
         == |FindAll(s, where, Some(args), orderBy, limit).value.args|
  {
    var w := Clause("where", where);
    var o := Clause("order by", orderBy);
    ClauseOccurrences("where", where);
    ClauseOccurrences("order by", orderBy);
    NoOccurrences('?', o);
    OccurrencesConcat('?', s.select, w);
    OccurrencesConcat('?', s.select + w, o);
    var head := s.select + w + o;
    LimitOccurrences(head);
  }

  /** `limit ?` adds one placeholder, `limit ?,?` two. */
  lemma LimitOccurrences(head: string)
    ensures Occurrences('?', head + " limit ?") == Occurrences('?', head) + 1
    ensures Occurrences('?', head + " limit ?,?") == Occurrences('?', head) + 2
  {
    OccurrencesConcat('?', head, " limit ?");
    OccurrencesConcat('?', head, " limit ?,?");
    OccurrencesConcat('?', " limit ", "?");
    OccurrencesConcat('?', " limit ", "?,?");
    assert " limit ?" == " limit " + "?";
    assert " limit ?,?" == " limit " + "?,?";
    NoOccurrences('?', " limit ");
    assert Occurrences('?', "?,?") == 2;
  }

  lemma ClauseOccurrences(keyword: string, text: string)
    requires '?' !in keyword
    ensures Occurrences('?', Clause(keyword, text)) == Occurrences('?', text)
  {
    if text != "" {
      assert '?' !in " " + keyword + " ";
      OccurrencesBetween('?', " " + keyword + " ", text, "");
      assert " " + keyword + " " + text + "" == Clause(keyword, text);
    }
  }

  /** `findNumber(selectField, where, args)`: a one-row count query. */
  function FindNumber(s: Schema, selectField: string, where: string, args: Option<seq<Value>>): (r: Statement)
    ensures r.Query? && r.size == 1 && r.args == args.GetOr([])
    ensures r.sql == "select count(" + selectField + ") _num_ from " + Quote(s.table) + Clause("where", where)
  {
    var head := "select count(" + selectField + ") _num_ from " + Quote(s.table);
    AppendClause([head], "where", where);
    Query(Join(" ", [head] + ClauseParts("where", where)), args.GetOr([]), 1)
  }

  /** With identifiers free of `?` and a WHERE fragment holding one
      placeholder per argument, the count query has as many placeholders as
      arguments. */
  lemma FindNumberPlaceholdersMatchArgs(s: Schema, selectField: string, where: string, args: seq<Value>)
    requires '?' !in selectField && '?' !in s.table
    requires Occurrences('?', where) == |args|
    ensures Occurrences('?', FindNumber(s, selectField, where, Some(args)).sql)
         == |FindNumber(s, selectField, where, Some(args)).args|
  {
    var head := "select count(" + selectField + ") _num_ from " + Quote(s.table);
    assert '?' !in head;
    NoOccurrences('?', head);
    ClauseOccurrences("where", where);
    OccurrencesConcat('?', head, Clause("where", where));
  }

  /** The executor's rewrite before `cursor.execute`: `?` becomes `%s`. */
  function DriverSql(st: Statement): (sql: string)
    ensures '?' !in sql
    ensures |sql| == |st.sql| + Occurrences('?', st.sql)
    ensures '%' !in st.sql ==> FromDriverPlaceholders(sql) == st.sql
  {
    if '%' !in st.sql then
      DriverPlaceholdersRoundTrip(st.sql);
      ToDriverPlaceholders(st.sql)
    else
      ToDriverPlaceholders(st.sql)
  }

  /** `fetchmany(size)` when `size` is truthy, else `fetchall()`. */
  function Fetch<R>(rows: seq<R>, size: nat): (r: seq<R>)
    ensures size == 0 ==> r == rows
    ensures size > 0 ==> |r| <= size && |r| <= |rows| && r == rows[..|r|] && (|r| < size ==> r == rows)
  {
    if size == 0 || |rows| <= size then rows else rows[..size]
  }

  /** `find` yields the first row returned, or None when there is none. */
  function FirstRow(rows: seq<Record>): (r: Option<Record>)
    ensures r.None? <==> |rows| == 0
    ensures r.Some? ==> r.value == rows[0]
  {
    if |rows| == 0 then None else Some(rows[0])
  }
}

=== FILE: routing.dfy ===
/** Routes and request arguments (coroweb.py): the `@get` / `@post` tags, the
    check `add_route` makes before registering a view function, the facts a
    `RequestHandler` records about it, and how `RequestHandler.__call__` turns
    the parsed request into the keyword arguments of the call. Parsing the
    body or query string is not modelled: its result is an input. */
module Routing {
  import opened Wrappers
  import opened Signature

  /** A view function as the router sees it: its parameters (what
      `inspect.signature` reports) and the `__method__` / `__path__` tags,
      `None` when absent. */
  datatype ViewFunction = ViewFunction(params: seq<Param>, httpMethod: Option<string>, path: Option<string>)

  /** The wrapper both decorators return: it calls `fn` with the same
      arguments. `functools.wraps` makes `inspect.signature` report `fn`'s
      parameters, and copies `fn`'s attributes before the tags are set, so a
      later decorator's tags replace an earlier one's. */
  function Tagged(verb: string, path: Option<string>, fn: ViewFunction): (r: ViewFunction)
    ensures r.params == fn.params
    ensures r.httpMethod == Some(verb) && r.path == path
  {
    fn.(httpMethod := Some(verb), path := path)
  }

  /** `get(path)(fn)`: the function keeps its parameters and, given a path,
      registers under GET exactly when its `request` parameter is placed
      correctly. */
  function Get(path: Option<string>, fn: ViewFunction): (r: ViewFunction)
    ensures r.params == fn.params
    ensures r.httpMethod == Some("GET") && r.path == path
    ensures path.None? ==> AddRoute(r) == Failure(NotDecorated)
    ensures path.Some? ==> (AddRoute(r).Success? <==> HasRequestArg(fn.params).Success?)
    ensures AddRoute(r).Success? ==> AddRoute(r).value.httpMethod == "GET" && Some(AddRoute(r).value.path) == path
  {
    Tagged("GET", path, fn)
  }

  /** `post(path)(fn)`: as `get`, under POST. */
  function Post(path: Option<string>, fn: ViewFunction): (r: ViewFunction)
    ensures r.params == fn.params
    ensures r.httpMethod == Some("POST") && r.path == path
    ensures path.None? ==> AddRoute(r) == Failure(NotDecorated)
    ensures path.Some? ==> (AddRoute(r).Success? <==> HasRequestArg(fn.params).Success?)
    ensures AddRoute(r).Success? ==> AddRoute(r).value.httpMethod == "POST" && Some(AddRoute(r).value.path) == path
  {
    Tagged("POST", path, fn)
  }

  /** The classification `RequestHandler.__init__` computes once per route. */
  datatype HandlerInfo = HandlerInfo(
    required: seq<string>,
    named: seq<string>,
    hasRequest: bool,
    hasNamed: bool,
    hasVarKw: bool)

  /** `info` describes a view function with parameters `ps`. */
  ghost predicate Describes(info: HandlerInfo, ps: seq<Param>) {
    && (forall n :: n in info.named <==> exists i :: 0 <= i < |ps| && ps[i].kind == KeywordOnly && ps[i].name == n)
    && (forall n :: n in info.required <==>
          exists i :: 0 <= i < |ps| && ps[i].kind == KeywordOnly && !ps[i].hasDefault && ps[i].name == n)
    && (forall n :: n in info.required ==> n in info.named)
    && (info.hasNamed <==> |info.named| > 0)
    && (info.hasVarKw <==> exists i :: 0 <= i < |ps| && ps[i].kind == VarKeyword)
    && (info.hasRequest <==> exists i :: 0 <= i < |ps| && ps[i].name == "request")
  }

  datatype Route = Route(httpMethod: string, path: string, info: HandlerInfo)

  datatype RouteError = NotDecorated | BadSignature(cause: SignatureError)

  /** `add_route(app, fn)`: a function without both tags is refused; otherwise
      the handler is built, which fails when `request` is followed by a
      parameter that can be bound by position. */
  function AddRoute(fn: ViewFunction): (r: Result<Route, RouteError>)
    ensures fn.httpMethod.None? || fn.path.None? ==> r == Failure(NotDecorated)
    ensures fn.httpMethod.Some? && fn.path.Some? ==>
      (r.Failure? <==> HasRequestArg(fn.params).Failure?)
    ensures r.Failure? ==> (r.error.BadSignature? <==> fn.httpMethod.Some? && fn.path.Some?)
    ensures r.Success? ==> r.value.httpMethod == fn.httpMethod.value && r.value.path == fn.path.value
    ensures r.Success? ==> Describes(r.value.info, fn.params)
    ensures r.Success? ==> r.value.info.required == RequiredKwArgs(fn.params) && r.value.info.named == NamedKwArgs(fn.params)
  {
    if fn.httpMethod.None? || fn.path.None? then Failure(NotDecorated)
    else
      var required := RequiredKwArgs(fn.params);
      var named := NamedKwArgs(fn.params);
      match HasRequestArg(fn.params)
      case Failure(e) => Failure(BadSignature(e))
      case Success(hasRequest) =>
        HasNamedIffSomeNamed(fn.params);
        assert forall n :: n in required ==> n in named by {
          forall n | n in required ensures n in named {
            var i :| 0 <= i < |fn.params| && fn.params[i].kind == KeywordOnly && !fn.params[i].hasDefault
                      && fn.params[i].name == n;
          }
        }
        Success(Route(fn.httpMethod.value, fn.path.value,
          HandlerInfo(required, named, hasRequest, HasNamedKwArg(fn.params), HasVarKwArg(fn.params))))
  }

  /** A function tagged by `@get` or `@post` with a path is registered exactly
      when its `request` parameter (if any) is placed correctly, under the
      method of the last decorator applied. */
  lemma DecoratedRegisters(path: string, fn: ViewFunction)
    ensures AddRoute(Get(Some(path), fn)).Success? <==> HasRequestArg(fn.params).Success?
    ensures AddRoute(Post(Some(path), fn)).Success? <==> HasRequestArg(fn.params).Success?
    ensures AddRoute(Get(Some(path), fn)).Success? ==> AddRoute(Get(Some(path), fn)).value.httpMethod == "GET"
    ensures AddRoute(Post(Get(Some(path), fn).path, Get(Some(path), fn))).Success? ==>
      AddRoute(Post(Get(Some(path), fn).path, Get(Some(path), fn))).value.httpMethod == "POST"
  {
  }

  /** What body parsing produced: nothing (no `kw`: a handler without keyword
      arguments, a GET without query string, another method), a map of
      arguments, or a rejection carrying the bad-request text. */
  datatype Body<V> = NoBody | Parsed(args: map<string, V>) | Rejected(text: string)

  /** The outcome of a request: a bad-request response, or the call of the
      view function with these keyword arguments. */
  datatype Outcome<V> = BadRequest(text: string) | Call(kw: map<string, V>)

  /** Whether `__call__` looks at the request body at all. */
  predicate WantsKeywords(info: HandlerInfo) {
    info.hasNamed || info.hasVarKw || |info.required| > 0
  }

  /** Whether parsed arguments are cut down to the named keyword arguments. */
  predicate OnlyNamed(info: HandlerInfo) {
    info.hasNamed && !info.hasVarKw
  }

  /** Keep only the keys that are named keyword arguments. */
  function KeepNamed<V>(named: seq<string>, kw: map<string, V>): (r: map<string, V>)
    ensures forall k :: k in r <==> k in kw && k in named
    ensures forall k :: k in r ==> r[k] == kw[k]
  {
    map k | k in kw && k in named :: kw[k]
  }

  /** Lines 136-154 of `__call__`: the keyword arguments before `request` is
      added and the required ones are checked. */
  function CollectArgs<V>(info: HandlerInfo, body: Body<V>, matchInfo: map<string, V>): (r: Result<map<string, V>, string>)
    ensures r.Failure? <==> WantsKeywords(info) && body.Rejected?
    ensures r.Failure? ==> r.error == body.text
    ensures r.Success? && (!WantsKeywords(info) || body.NoBody?) ==> r.value == matchInfo
    ensures r.Success? ==> forall k :: k in matchInfo ==> k in r.value && r.value[k] == matchInfo[k]
    ensures r.Success? && WantsKeywords(info) && body.Parsed? ==> forall k :: k !in matchInfo ==>
      (k in r.value <==> k in body.args && (!OnlyNamed(info) || k in info.named))
    ensures r.Success? && WantsKeywords(info) && body.Parsed? ==> forall k :: k in r.value && k !in matchInfo ==> r.value[k] == body.args[k]
  {
    if !WantsKeywords(info) then Success(matchInfo)
    else
      match body
      case Rejected(text) => Failure(text)
      case NoBody => Success(matchInfo)
      case Parsed(kw) =>
        var kept := if OnlyNamed(info) then KeepNamed(info.named, kw) else kw;
        Success(kept + matchInfo)
  }

  /** The first required name missing from `kw`, in declaration order. */
  function FirstMissing<V>(names: seq<string>, kw: map<string, V>): (r: Option<string>)
    ensures r.None? <==> forall i :: 0 <= i < |names| ==> names[i] in kw
    ensures r.Some? ==> exists i :: 0 <= i < |names| && names[i] == r.value && r.value !in kw
                                   && forall j :: 0 <= j < i ==> names[j] in kw
    decreases |names|
  {
    if |names| == 0 then None
    else if names[0] !in kw then Some(names[0])
    else
      var rest := FirstMissing(names[1..], kw);
      assert forall i :: 0 < i < |names| ==> names[i] == names[1..][i - 1];
      if rest.Some? then
        var i :| 0 <= i < |names[1..]| && names[1..][i] == rest.value && rest.value !in kw
                 && forall j :: 0 <= j < i ==> names[1..][j] in kw;
        assert names[i + 1] == rest.value;
        rest
      else rest
  }

  /** `RequestHandler.__call__` after body parsing: collect the arguments,
      let the route's `match_info` win over parsed ones, add `request`, and
      refuse the call when a required keyword argument is missing. */
  function Bind<V>(info: HandlerInfo, body: Body<V>, matchInfo: map<string, V>, request: V): (r: Outcome<V>)
    ensures WantsKeywords(info) && body.Rejected? ==> r == BadRequest(body.text)
    ensures r.Call? ==> forall n :: n in info.required ==> n in r.kw
    ensures r.Call? && info.hasRequest ==> "request" in r.kw && r.kw["request"] == request
    ensures r.Call? ==> forall k :: k in matchInfo && !(info.hasRequest && k == "request") ==>
      k in r.kw && r.kw[k] == matchInfo[k]
    ensures r.Call? && WantsKeywords(info) && body.Parsed? ==>
      forall k :: k in r.kw && k !in matchInfo && !(info.hasRequest && k == "request") ==>
        k in body.args && r.kw[k] == body.args[k]
    ensures r.Call? && (!WantsKeywords(info) || body.NoBody?) ==>
      forall k :: k in r.kw <==> k in matchInfo || (info.hasRequest && k == "request")
    ensures r.BadRequest? && !(WantsKeywords(info) && body.Rejected?) ==>
      exists n :: n in info.required && r.text == "Missing argument: " + n
    ensures r.BadRequest? && !(WantsKeywords(info) && body.Rejected?) ==>
      var collected := CollectArgs(info, body, matchInfo).value;
      var kw := if info.hasRequest then collected["request" := request] else collected;
      exists i :: 0 <= i < |info.required| && r.text == "Missing argument: " + info.required[i]
                  && info.required[i] !in kw && forall j :: 0 <= j < i ==> info.required[j] in kw
  {
    match CollectArgs(info, body, matchInfo)
    case Failure(text) => BadRequest(text)
    case Success(collected) =>
      var kw := if info.hasRequest then collected["request" := request] else collected;
      match FirstMissing(info.required, kw)
      case Some(n) => BadRequest("Missing argument: " + n)
      case None => Call(kw)
  }

  /** The call happens exactly when the body was not rejected and every
      required keyword argument ends up present. */
  lemma CallIffRequiredPresent<V>(info: HandlerInfo, body: Body<V>, matchInfo: map<string, V>, request: V)
    requires !(WantsKeywords(info) && body.Rejected?)
    ensures Bind(info, body, matchInfo, request).Call? <==>
      forall n :: n in info.required ==>
        n in CollectArgs(info, body, matchInfo).value || (info.hasRequest && n == "request")
  {
  }

  /** With parsed arguments and only named keyword arguments declared,
      exactly the named ones present in the body, the route's values and
      `request` reach the view function. */
  lemma OnlyNamedReachCall<V>(info: HandlerInfo, args: map<string, V>, matchInfo: map<string, V>, request: V)
    requires OnlyNamed(info)
    requires Bind(info, Parsed(args), matchInfo, request).Call?
    ensures var kw := Bind(info, Parsed(args), matchInfo, request).kw;
      forall k :: k in kw <==> (k in args && k in info.named) || k in matchInfo || (info.hasRequest && k == "request")
    ensures var kw := Bind(info, Parsed(args), matchInfo, request).kw;
      forall k :: k in args && k in info.named && k !in matchInfo && !(info.hasRequest && k == "request") ==>
        kw[k] == args[k]
  {
  }

  /** A view function with `**kw` receives every parsed argument; only the
      route's values and `request` take precedence over them. */
  lemma VarKwKeepsAll<V>(info: HandlerInfo, args: map<string, V>, matchInfo: map<string, V>, request: V)
    requires info.hasVarKw
    requires Bind(info, Parsed(args), matchInfo, request).Call?
    ensures var kw := Bind(info, Parsed(args), matchInfo, request).kw;
      forall k :: k in args ==> k in kw
    ensures var kw := Bind(info, Parsed(args), matchInfo, request).kw;
      forall k :: k in args && k !in matchInfo && !(info.hasRequest && k == "request") ==> kw[k] == args[k]
  {
  }
}

=== FILE: schema.dfy ===
/** `ModeMetaclass.__new__` (orm.py): from the attributes a model class
    declares, in declaration order, derive the table name, the attribute to
    Field mapping, the single primary key, the ordered non-key fields and the
    four SQL templates, rendered once. */
module Schema {
  import opened Wrappers
  import opened Text
  import opened Fields

  /** A class attribute's value. The metaclass only asks of a non-Field value
      whether it is truthy and what `str()` makes of it. */
  datatype AttrValue = FieldAttr(field: Field) | PlainAttr(truthy: bool, text: string)

  datatype Attr = Attr(name: string, value: AttrValue)

  /** A string-valued class attribute, such as `__table__ = 'users'`. */
  function StrAttr(s: string): AttrValue {
    PlainAttr(s != "", s)
  }

  predicate IsFieldAttr(a: Attr) {
    a.value.FieldAttr?
  }

  predicate IsKeyAttr(a: Attr) {
    a.value.FieldAttr? && a.value.field.primaryKey
  }

  predicate IsNonKeyAttr(a: Attr) {
    a.value.FieldAttr? && !a.value.field.primaryKey
  }

  /** A class namespace is a dict keyed by identifiers: names are non-empty
      and distinct. */
  ghost predicate WellFormed(attrs: seq<Attr>) {
    && (forall i :: 0 <= i < |attrs| ==> attrs[i].name != "")
    && (forall i, j :: 0 <= i < j < |attrs| ==> attrs[i].name != attrs[j].name)
  }

  /** The names the metaclass writes itself, overwriting any declared value. */
  const Reserved: set<string> := {"__mappings__", "__table__", "__primary_key__", "__fields__",
                                  "__select__", "__insert__", "__update__", "__delete__"}

  /** Why class creation is aborted. The source raises `StandardError`, which
      Python 3 does not define, so either case surfaces as a `NameError`. */
  datatype SchemaFault = DuplicatePrimaryKey(attr: string) | PrimaryKeyNotFound

  datatype Schema = Schema(table: string, mappings: map<string, Field>, primaryKey: string,
                           fields: seq<string>,
                           select: string, insert: string, update: string, delete: string)

  /** What the metaclass hands to `type.__new__`: the base class untouched, or
      an entity's schema together with the attributes it leaves in place. */
  datatype ClassDef = BaseModel(attrs: seq<Attr>) | Entity(schema: Schema, attrs: seq<Attr>)

  /** `attrs.get(key)`: the value bound last, as a dict built from the
      declarations would hold. */
  function Lookup(attrs: seq<Attr>, key: string): Option<AttrValue>
    decreases |attrs|
  {
    if |attrs| == 0 then None
    else if attrs[|attrs| - 1].name == key then Some(attrs[|attrs| - 1].value)
    else Lookup(attrs[..|attrs| - 1], key)
  }

  /** `attrs.get('__table__', None) or name` */
  function TableName(className: string, attrs: seq<Attr>): string {
    match Lookup(attrs, "__table__")
    case None => className
    case Some(FieldAttr(f)) => Describe(f)
    case Some(PlainAttr(truthy, text)) => if truthy then text else className
  }

  /** Names of the non-key Field attributes, in declaration order. */
  function NonKeyNames(attrs: seq<Attr>): (names: seq<string>)
    ensures |names| <= |attrs|
    ensures forall n :: n in names <==> exists i :: 0 <= i < |attrs| && IsNonKeyAttr(attrs[i]) && attrs[i].name == n
    decreases |attrs|
  {
    if |attrs| == 0 then []
    else
      var init := attrs[..|attrs| - 1];
      var last := attrs[|attrs| - 1];
      assert forall i :: 0 <= i < |init| ==> init[i] == attrs[i];
      NonKeyNames(init) + (if IsNonKeyAttr(last) then [last.name] else [])
  }

  /** Number of Field attributes marked primary key. */
  function KeyCount(attrs: seq<Attr>): nat
    decreases |attrs|
  {
    if |attrs| == 0 then 0
    else KeyCount(attrs[..|attrs| - 1]) + (if IsKeyAttr(attrs[|attrs| - 1]) then 1 else 0)
  }

  /** State of the scan loop (orm.py:118-133); `primaryKey == ""` is the falsy
      `None` the loop starts from. */
  datatype Scan = Scan(mappings: map<string, Field>, fields: seq<string>, primaryKey: string)

  /** One iteration of the scan over `attrs.items()`: a Field is mapped under
      its name and listed or taken as the key; a second key aborts. */
  function Step(s: Scan, a: Attr): (r: Result<Scan, SchemaFault>)
    ensures r.Failure? <==> IsKeyAttr(a) && s.primaryKey != ""
    ensures r.Failure? ==> r.error == DuplicatePrimaryKey(a.name)
    ensures r.Success? ==> forall k :: k in r.value.mappings <==> k in s.mappings || (IsFieldAttr(a) && k == a.name)
    ensures r.Success? ==> r.value.fields == s.fields + (if IsNonKeyAttr(a) then [a.name] else [])
    ensures r.Success? ==> r.value.primaryKey == (if IsKeyAttr(a) then a.name else s.primaryKey)
    ensures r.Success? && IsFieldAttr(a) ==> r.value.mappings[a.name] == a.value.field
    ensures r.Success? ==> forall k :: k in s.mappings && k != a.name ==> r.value.mappings[k] == s.mappings[k]
  {
    match a.value
    case PlainAttr(_, _) => Success(s)
    case FieldAttr(f) =>
      if f.primaryKey then
        if s.primaryKey != "" then Failure(DuplicatePrimaryKey(a.name))
        else Success(Scan(s.mappings[a.name := f], s.fields, a.name))
      else Success(Scan(s.mappings[a.name := f], s.fields + [a.name], s.primaryKey))
  }

  /** The whole scan: every Field attribute is mapped, non-key ones are listed
      in order, and a second primary key aborts. */
  function ScanAttrs(attrs: seq<Attr>): (r: Result<Scan, SchemaFault>)
    ensures r.Success? ==> r.value.fields == NonKeyNames(attrs)
    ensures r.Success? ==> forall k :: k in r.value.mappings <==>
      exists i :: 0 <= i < |attrs| && IsFieldAttr(attrs[i]) && attrs[i].name == k
    ensures r.Success? ==> forall i :: 0 <= i < |r.value.fields| ==> r.value.fields[i] in r.value.mappings
    ensures r.Success? && r.value.primaryKey != "" ==>
      exists i :: 0 <= i < |attrs| && IsKeyAttr(attrs[i]) && attrs[i].name == r.value.primaryKey
    ensures r.Failure? ==> r.error.DuplicatePrimaryKey?
    ensures r.Failure? ==>
      exists i :: 0 <= i < |attrs| && IsKeyAttr(attrs[i]) && attrs[i].name == r.error.attr
    decreases |attrs|
  {
    if |attrs| == 0 then Success(Scan(map[], [], ""))
    else
      var init := attrs[..|attrs| - 1];
      assert forall i :: 0 <= i < |init| ==> init[i] == attrs[i];
      var last := attrs[|attrs| - 1];
      assert forall i :: 0 <= i < |attrs| ==> i < |init| || attrs[i] == last;
      var prior := ScanAttrs(init);
      if prior.Failure? then prior
      else Step(prior.value, last)
  }

  /** On distinct names, `mappings[k] = v` maps every Field attribute to the
      Field declared under it. */
  lemma {:induction false} ScanMapsDeclaredFields(attrs: seq<Attr>)
    ensures WellFormed(attrs) && ScanAttrs(attrs).Success? ==>
      forall i :: 0 <= i < |attrs| && IsFieldAttr(attrs[i]) ==>
        ScanAttrs(attrs).value.mappings[attrs[i].name] == attrs[i].value.field
    decreases |attrs|
  {
    if |attrs| > 0 && WellFormed(attrs) {
      var init := attrs[..|attrs| - 1];
      assert forall i :: 0 <= i < |init| ==> init[i] == attrs[i];
      assert WellFormed(init);
      ScanMapsDeclaredFields(init);
    }
  }

  /** No name occurs twice. */
  predicate Distinct(names: seq<string>) {
    forall i, j :: 0 <= i < j < |names| ==> names[i] != names[j]
  }

  /** What the scan guarantees about a well-formed namespace. */
  ghost predicate ScanInvariant(s: Scan) {
    && "" !in s.mappings
    && (forall i :: 0 <= i < |s.fields| ==> s.fields[i] in s.mappings && !s.mappings[s.fields[i]].primaryKey)
    && Distinct(s.fields)
    && (s.primaryKey != "" ==> s.primaryKey in s.mappings && s.mappings[s.primaryKey].primaryKey)
    && (forall k :: k in s.mappings ==> k == s.primaryKey || k in s.fields)
  }

  /** One scan step keeps the invariant when the attribute's name is new and non-empty. */
  lemma StepKeepsInvariant(s: Scan, a: Attr)
    requires ScanInvariant(s) && a.name != "" && a.name !in s.mappings
    ensures Step(s, a).Success? ==> ScanInvariant(Step(s, a).value)
  {
    if a.value.FieldAttr? && Step(s, a).Success? {
      var t := Step(s, a).value;
      assert a.name !in s.fields;
      forall i | 0 <= i < |s.fields|
        ensures s.fields[i] != a.name && t.mappings[s.fields[i]] == s.mappings[s.fields[i]]
      {
      }
      if a.value.field.primaryKey {
        assert s.primaryKey == "";
        assert t.fields == s.fields;
      } else {
        assert t.fields == s.fields + [a.name];
        assert s.primaryKey != "" ==> s.primaryKey != a.name;
      }
    }
  }

  lemma {:induction false} ScanKeepsInvariant(attrs: seq<Attr>)
    requires WellFormed(attrs)
    ensures ScanAttrs(attrs).Success? ==> ScanInvariant(ScanAttrs(attrs).value)
    decreases |attrs|
  {
    if |attrs| > 0 {
      var init := attrs[..|attrs| - 1];
      var last := attrs[|attrs| - 1];
      assert forall i :: 0 <= i < |init| ==> init[i] == attrs[i];
      assert WellFormed(init);
      ScanKeepsInvariant(init);
      var prior := ScanAttrs(init);
      if prior.Success? {
        var s := prior.value;
        forall i | 0 <= i < |init|
          ensures init[i].name != last.name
        {
          assert attrs[i].name != attrs[|attrs| - 1].name;
        }
        StepKeepsInvariant(s, last);
      }
    }
  }

  /** With non-empty names, the scan fails exactly when two or more Fields are
      marked primary key, and otherwise has found a key exactly when one is. */
  lemma {:induction false} ScanKeyOutcome(attrs: seq<Attr>)
    requires forall i :: 0 <= i < |attrs| ==> attrs[i].name != ""
    ensures ScanAttrs(attrs).Failure? <==> KeyCount(attrs) >= 2
    ensures ScanAttrs(attrs).Success? ==> (ScanAttrs(attrs).value.primaryKey != "" <==> KeyCount(attrs) == 1)
    decreases |attrs|
  {
    if |attrs| > 0 {
      var init := attrs[..|attrs| - 1];
      assert forall i :: 0 <= i < |init| ==> init[i] == attrs[i];
      ScanKeyOutcome(init);
    }
  }

  /** The SELECT template: key first, then the non-key attributes. */
  function SelectSql(table: string, pk: string, fields: seq<string>): string {
    "select " + Quote(pk) + ", " + Join(", ", QuoteAll(fields)) + " from " + Quote(table)
  }

  /** The INSERT template: non-key attributes, then the key, one placeholder each. */
  function InsertSql(table: string, pk: string, fields: seq<string>): string {
    "insert into " + Quote(table) + " (" + Join(", ", QuoteAll(fields)) + ", " + Quote(pk)
      + ") values (" + CreateArgsString(|fields| + 1) + ")"
  }

  /** The `col`=? assignments of the UPDATE template; unlike SELECT and INSERT
      they name the column (`Field.name or attribute`). */
  function Assignments(fields: seq<string>, mappings: map<string, Field>): seq<string>
    requires forall i :: 0 <= i < |fields| ==> fields[i] in mappings
  {
    seq(|fields|, i requires 0 <= i < |fields| => Quote(ColumnName(mappings[fields[i]], fields[i])) + "=?")
  }

  function UpdateSql(table: string, pk: string, fields: seq<string>, mappings: map<string, Field>): string
    requires forall i :: 0 <= i < |fields| ==> fields[i] in mappings
  {
    "update " + Quote(table) + " set " + Join(", ", Assignments(fields, mappings))
      + " where " + Quote(pk) + "=?"
  }

  function DeleteSql(table: string, pk: string): string {
    "delete from " + Quote(table) + " where " + Quote(pk) + "=?"
  }

  /** The four templates are the ones rendered from the schema's own parts. */
  ghost predicate Rendered(s: Schema) {
    && (forall i :: 0 <= i < |s.fields| ==> s.fields[i] in s.mappings)
    && s.select == SelectSql(s.table, s.primaryKey, s.fields)
    && s.insert == InsertSql(s.table, s.primaryKey, s.fields)
    && s.update == UpdateSql(s.table, s.primaryKey, s.fields, s.mappings)
    && s.delete == DeleteSql(s.table, s.primaryKey)
  }

  /** A derived entity schema: one key, mapped and marked; non-key fields
      distinct, mapped and unmarked; nothing else mapped. */
  ghost predicate Consistent(s: Schema) {
    && s.primaryKey != ""
    && s.primaryKey in s.mappings && s.mappings[s.primaryKey].primaryKey
    && (forall i :: 0 <= i < |s.fields| ==> s.fields[i] in s.mappings && !s.mappings[s.fields[i]].primaryKey)
    && Distinct(s.fields)
    && (forall k :: k in s.mappings ==> k == s.primaryKey || k in s.fields)
  }

  function Render(table: string, s: Scan): Schema
    requires forall i :: 0 <= i < |s.fields| ==> s.fields[i] in s.mappings
  {
    Schema(table, s.mappings, s.primaryKey, s.fields,
           SelectSql(table, s.primaryKey, s.fields),
           InsertSql(table, s.primaryKey, s.fields),
           UpdateSql(table, s.primaryKey, s.fields, s.mappings),
           DeleteSql(table, s.primaryKey))
  }

  /** The attributes left on the class: Field attributes are popped and the
      reserved names are overwritten by the metaclass. */
  function Remaining(attrs: seq<Attr>, popped: set<string>): (rest: seq<Attr>)
    ensures forall j :: 0 <= j < |rest| ==> rest[j].name !in popped && rest[j].name !in Reserved
    ensures forall j :: 0 <= j < |rest| ==> rest[j] in attrs
    ensures forall i :: 0 <= i < |attrs| && attrs[i].name !in popped && attrs[i].name !in Reserved ==> attrs[i] in rest
    decreases |attrs|
  {
    if |attrs| == 0 then []
    else
      var tail := Remaining(attrs[1..], popped);
      assert forall i :: 1 <= i < |attrs| ==> attrs[i] == attrs[1..][i - 1];
      if attrs[0].name !in popped && attrs[0].name !in Reserved then [attrs[0]] + tail else tail
  }

  /** `ModeMetaclass.__new__(cls, name, bases, attrs)` */
  function DeriveSchema(className: string, attrs: seq<Attr>): (r: Result<ClassDef, SchemaFault>)
    ensures className == "Model" ==> r.Success? && r.value.BaseModel? && r.value.attrs == attrs
    ensures className != "Model" && r.Success? ==> r.value.Entity?
    ensures r.Success? && r.value.Entity? ==>
      var s := r.value.schema;
      && s.table == TableName(className, attrs)
      && s.fields == NonKeyNames(attrs)
      && s.primaryKey != ""
      && (exists i :: 0 <= i < |attrs| && IsKeyAttr(attrs[i]) && attrs[i].name == s.primaryKey)
      && (forall k :: k in s.mappings <==> exists i :: 0 <= i < |attrs| && IsFieldAttr(attrs[i]) && attrs[i].name == k)
      && Rendered(s)
    ensures r.Success? && r.value.Entity? && WellFormed(attrs) ==> Consistent(r.value.schema)
    ensures r.Success? && r.value.Entity? ==>
      forall j :: 0 <= j < |r.value.attrs| ==>
        r.value.attrs[j] in attrs && r.value.attrs[j].name !in r.value.schema.mappings
        && r.value.attrs[j].name !in Reserved
    ensures r.Success? && r.value.Entity? && WellFormed(attrs) ==>
      forall i :: 0 <= i < |attrs| && IsFieldAttr(attrs[i]) ==>
        r.value.schema.mappings[attrs[i].name] == attrs[i].value.field
    ensures r.Success? && r.value.Entity? && WellFormed(attrs) ==>
      forall i :: 0 <= i < |attrs| && !IsFieldAttr(attrs[i]) && attrs[i].name !in Reserved ==>
        attrs[i] in r.value.attrs
  {
    if className == "Model" then Success(BaseModel(attrs))
    else
      var table := TableName(className, attrs);
      var s :- ScanAttrs(attrs);
      if s.primaryKey == "" then Failure(PrimaryKeyNotFound)
      else
        ScanInvariantWhenWellFormed(attrs);
        ScanMapsDeclaredFields(attrs);
        Success(Entity(Render(table, s), Remaining(attrs, s.mappings.Keys)))
  }

  lemma ScanInvariantWhenWellFormed(attrs: seq<Attr>)
    ensures WellFormed(attrs) && ScanAttrs(attrs).Success? ==> ScanInvariant(ScanAttrs(attrs).value)
  {
    if WellFormed(attrs) {
      ScanKeepsInvariant(attrs);
    }
  }

  /** Schema derivation on a well-formed entity declaration: no key and two or
      more keys abort class creation; exactly one key yields a consistent schema. */
  lemma DeriveOutcome(className: string, attrs: seq<Attr>)
    requires className != "Model" && WellFormed(attrs)
    ensures KeyCount(attrs) == 0 ==> DeriveSchema(className, attrs) == Failure(PrimaryKeyNotFound)
    ensures KeyCount(attrs) >= 2 ==>
      DeriveSchema(className, attrs).Failure? && DeriveSchema(className, attrs).error.DuplicatePrimaryKey?
    ensures KeyCount(attrs) == 1 ==>
      DeriveSchema(className, attrs).Success? && Consistent(DeriveSchema(className, attrs).value.schema)
  {
    ScanKeyOutcome(attrs);
  }

  /** With exactly one key, `__primary_key__` is that attribute. */
  lemma DerivedKeyIsDeclaredKey(className: string, attrs: seq<Attr>, k: nat)
    requires className != "Model" && WellFormed(attrs)
    requires 0 <= k < |attrs| && IsKeyAttr(attrs[k]) && KeyCount(attrs) == 1
    ensures DeriveSchema(className, attrs).Success?
    ensures DeriveSchema(className, attrs).value.schema.primaryKey == attrs[k].name
  {
    DeriveOutcome(className, attrs);
    var s := ScanAttrs(attrs).value;
    var i :| 0 <= i < |attrs| && IsKeyAttr(attrs[i]) && attrs[i].name == s.primaryKey;
    if i != k {
      TwoKeysCounted(attrs, i, k);
    }
  }

  lemma {:induction false} TwoKeysCounted(attrs: seq<Attr>, i: nat, j: nat)
    requires 0 <= i < |attrs| && 0 <= j < |attrs| && i != j
    requires IsKeyAttr(attrs[i]) && IsKeyAttr(attrs[j])
    ensures KeyCount(attrs) >= 2
    decreases |attrs|
  {
    var n := |attrs| - 1;
    var init := attrs[..n];
    assert forall m :: 0 <= m < |init| ==> init[m] == attrs[m];
    if i == n {
      OneKeyCounted(init, j);
    } else if j == n {
      OneKeyCounted(init, i);
    } else {
      TwoKeysCounted(init, i, j);
    }
  }

  lemma {:induction false} OneKeyCounted(attrs: seq<Attr>, i: nat)
    requires 0 <= i < |attrs| && IsKeyAttr(attrs[i])
    ensures KeyCount(attrs) >= 1
    decreases |attrs|
  {
    var n := |attrs| - 1;
    var init := attrs[..n];
    assert forall m :: 0 <= m < |init| ==> init[m] == attrs[m];
    if i < n {
      OneKeyCounted(init, i);
    }
  }

  /** `attrs.get(key)` on a well-formed namespace finds the one declaration of `key`. */
  lemma {:induction false} LookupFindsDeclaration(attrs: seq<Attr>, i: nat)
    requires WellFormed(attrs) && 0 <= i < |attrs|
    ensures Lookup(attrs, attrs[i].name) == Some(attrs[i].value)
    decreases |attrs|
  {
    var n := |attrs| - 1;
    if i < n {
      var init := attrs[..n];
      assert forall m :: 0 <= m < |init| ==> init[m] == attrs[m];
      LookupFindsDeclaration(init, i);
    }
  }

  /** The table is the declared `__table__` string when it is non-empty, and
      the class name otherwise. */
  lemma DeclaredTableName(className: string, attrs: seq<Attr>, i: nat, table: string)
    requires WellFormed(attrs) && 0 <= i < |attrs| && attrs[i] == Attr("__table__", StrAttr(table))
    ensures TableName(className, attrs) == if table != "" then table else className
  {
    LookupFindsDeclaration(attrs, i);
  }

  /** A Field declared as `__table__` is an object, hence truthy: the table
      takes its `str()`, never the class name. */
  lemma FieldTableName(className: string, attrs: seq<Attr>, i: nat)
    requires WellFormed(attrs) && 0 <= i < |attrs|
    requires attrs[i].name == "__table__" && attrs[i].value.FieldAttr?
    ensures TableName(className, attrs) == Describe(attrs[i].value.field)
  {
    LookupFindsDeclaration(attrs, i);
  }

  /** Without a `__table__` declaration the table is named after the class. */
  lemma {:induction false} DefaultTableName(className: string, attrs: seq<Attr>)
    requires forall i :: 0 <= i < |attrs| ==> attrs[i].name != "__table__"
    ensures TableName(className, attrs) == className
  {
    assert Lookup(attrs, "__table__") == None by {
      LookupMissing(attrs, "__table__");
    }
  }

  lemma {:induction false} LookupMissing(attrs: seq<Attr>, key: string)
    requires forall i :: 0 <= i < |attrs| ==> attrs[i].name != key
    ensures Lookup(attrs, key) == None
    decreases |attrs|
  {
    if |attrs| > 0 {
      var init := attrs[..|attrs| - 1];
      assert forall m :: 0 <= m < |init| ==> init[m] == attrs[m];
      LookupMissing(init, key);
    }
  }

  /** Declaration order is kept: the non-key list of a concatenation is the
      concatenation of the non-key lists. */
  lemma {:induction false} NonKeyNamesKeepOrder(a: seq<Attr>, b: seq<Attr>)
    ensures NonKeyNames(a + b) == NonKeyNames(a) + NonKeyNames(b)
    decreases |b|
  {
    if |b| > 0 {
      var bi := b[..|b| - 1];
      assert (a + b)[..|a + b| - 1] == a + bi;
      assert (a + b)[|a + b| - 1] == b[|b| - 1];
      NonKeyNamesKeepOrder(a, bi);
    } else {
      assert a + b == a;
    }
  }

  /** No identifier of the schema contains a question mark. */
  ghost predicate Unmarked(s: Schema)
    requires forall i :: 0 <= i < |s.fields| ==> s.fields[i] in s.mappings
  {
    && '?' !in s.table && '?' !in s.primaryKey
    && (forall i :: 0 <= i < |s.fields| ==> '?' !in s.fields[i])
    && (forall i :: 0 <= i < |s.fields| ==> '?' !in ColumnName(s.mappings[s.fields[i]], s.fields[i]))
  }

  lemma NoMarksJoined(names: seq<string>)
    requires forall i :: 0 <= i < |names| ==> '?' !in names[i]
    ensures Occurrences('?', Join(", ", QuoteAll(names))) == 0
  {
    OccurrencesJoin('?', ", ", QuoteAll(names));
    OccurrencesInNone('?', names);
  }

  lemma SelectPlaceholders(table: string, pk: string, fields: seq<string>)
    requires '?' !in table && '?' !in pk
    requires forall i :: 0 <= i < |fields| ==> '?' !in fields[i]
    ensures Occurrences('?', SelectSql(table, pk, fields)) == 0
  {
    var cols := Join(", ", QuoteAll(fields));
    NoMarksJoined(fields);
    AbsentWhenNoOccurrences('?', cols);
    assert '?' !in SelectSql(table, pk, fields);
    NoOccurrences('?', SelectSql(table, pk, fields));
  }

  lemma InsertPlaceholders(table: string, pk: string, fields: seq<string>)
    requires '?' !in table && '?' !in pk
    requires forall i :: 0 <= i < |fields| ==> '?' !in fields[i]
    ensures Occurrences('?', InsertSql(table, pk, fields)) == |fields| + 1
  {
    var cols := Join(", ", QuoteAll(fields));
    NoMarksJoined(fields);
    AbsentWhenNoOccurrences('?', cols);
    var head := "insert into " + Quote(table) + " (" + cols + ", " + Quote(pk) + ") values (";
    assert '?' !in head;
    OccurrencesBetween('?', head, CreateArgsString(|fields| + 1), ")");
  }

  lemma AssignmentsPlaceholders(fields: seq<string>, mappings: map<string, Field>)
    requires forall i :: 0 <= i < |fields| ==> fields[i] in mappings
    requires forall i :: 0 <= i < |fields| ==> '?' !in ColumnName(mappings[fields[i]], fields[i])
    ensures Occurrences('?', Join(", ", Assignments(fields, mappings))) == |fields|
  {
    var assigns := Assignments(fields, mappings);
    forall i | 0 <= i < |assigns|
      ensures Occurrences('?', assigns[i]) == 1
    {
      var col := ColumnName(mappings[fields[i]], fields[i]);
      OccurrencesBetween('?', Quote(col) + "=", "?", "");
      assert assigns[i] == Quote(col) + "=" + "?" + "";
    }
    OccurrencesJoin('?', ", ", assigns);
    OccurrencesInOnce('?', assigns);
  }

  lemma UpdatePlaceholders(table: string, pk: string, fields: seq<string>, mappings: map<string, Field>)
    requires forall i :: 0 <= i < |fields| ==> fields[i] in mappings
    requires '?' !in table && '?' !in pk
    requires forall i :: 0 <= i < |fields| ==> '?' !in ColumnName(mappings[fields[i]], fields[i])
    ensures Occurrences('?', UpdateSql(table, pk, fields, mappings)) == |fields| + 1
  {
    var sets := Join(", ", Assignments(fields, mappings));
    AssignmentsPlaceholders(fields, mappings);
    UpdateAroundAssignments(table, pk, sets);
  }

  lemma UpdateAroundAssignments(table: string, pk: string, sets: string)
    requires '?' !in table && '?' !in pk
    ensures Occurrences('?', "update " + Quote(table) + " set " + sets + " where " + Quote(pk) + "=?")
         == Occurrences('?', sets) + 1
  {
    var head := "update " + Quote(table) + " set ";
    assert '?' !in head;
    NoOccurrences('?', head);
    OccurrencesConcat('?', head, sets);
    NoOccurrences('?', " where ");
    OccurrencesConcat('?', head + sets, " where ");
    assert '?' !in Quote(pk);
    NoOccurrences('?', Quote(pk));
    OccurrencesConcat('?', head + sets + " where ", Quote(pk));
    EndsWithOneMark(head + sets + " where " + Quote(pk));
  }

  lemma DeletePlaceholders(table: string, pk: string)
    requires '?' !in table && '?' !in pk
    ensures Occurrences('?', DeleteSql(table, pk)) == 1
  {
    var head := "delete from " + Quote(table) + " where " + Quote(pk);
    assert '?' !in head;
    NoOccurrences('?', head);
    EndsWithOneMark(head);
  }

  /** `=?` closes UPDATE and DELETE: one placeholder more than what precedes it. */
  lemma EndsWithOneMark(s: string)
    ensures Occurrences('?', s + "=?") == Occurrences('?', s) + 1
  {
    OccurrencesConcat('?', s, "=?");
    assert Occurrences('?', "=?") == 1;
  }

  /** Placeholder counts of the templates: none in SELECT, one per non-key
      field plus one for the key in INSERT and UPDATE, one in DELETE. */
  lemma TemplatePlaceholders(s: Schema)
    ensures Rendered(s) && Unmarked(s) ==>
      && Occurrences('?', s.select) == 0
      && Occurrences('?', s.insert) == |s.fields| + 1
      && Occurrences('?', s.update) == |s.fields| + 1
      && Occurrences('?', s.delete) == 1
  {
    if Rendered(s) && Unmarked(s) {
      SelectPlaceholders(s.table, s.primaryKey, s.fields);
      InsertPlaceholders(s.table, s.primaryKey, s.fields);
      UpdatePlaceholders(s.table, s.primaryKey, s.fields, s.mappings);
      DeletePlaceholders(s.table, s.primaryKey);
    }
  }

  /** An entity whose only Field is its key renders a SELECT with a dangling
      `, ` before FROM and an INSERT whose column list opens with `, `. */
  lemma KeyOnlyTemplates(table: string, pk: string)
    ensures SelectSql(table, pk, []) == "select `" + pk + "`,  from `" + table + "`"
    ensures InsertSql(table, pk, []) == "insert into `" + table + "` (, `" + pk + "`) values (?)"
  {
    KeyOnlySelect(table, pk);
    KeyOnlyInsert(table, pk);
  }

  lemma KeyOnlySelect(table: string, pk: string)
    ensures SelectSql(table, pk, []) == "select `" + pk + "`,  from `" + table + "`"
  {
    assert Join(", ", QuoteAll([])) == "";
  }

  lemma KeyOnlyInsert(table: string, pk: string)
    ensures InsertSql(table, pk, []) == "insert into `" + table + "` (, `" + pk + "`) values (?)"
  {
    assert Join(", ", QuoteAll([])) == "";
    assert CreateArgsString(1) == "?";
  }

  /** The same entity renders an UPDATE whose SET list is empty. */
  lemma KeyOnlyUpdate(table: string, pk: string, mappings: map<string, Field>)
    ensures UpdateSql(table, pk, [], mappings) == "update `" + table + "` set  where `" + pk + "`=?"
  {
    assert Join(", ", Assignments([], mappings)) == "";
    calc {
      UpdateSql(table, pk, [], mappings);
      "update " + Quote(table) + " set " + "" + " where " + Quote(pk) + "=?";
      "update `" + table + "` set  where `" + pk + "`=?";
    }
  }
}

=== FILE: signature.dfy ===
/** The classification of a view function's parameter list (coroweb.py): which
    keyword-only parameters it names, which of them are required, whether it
    takes `**kw`, and whether (and where) it takes `request`. A parameter list
    is what `inspect.signature(fn).parameters` yields, in declaration order. */
module Signature {
  import opened Wrappers

  /** `inspect.Parameter.kind`. */
  datatype Kind = PositionalOnly | PositionalOrKeyword | VarPositional | KeywordOnly | VarKeyword

  /** One parameter; `hasDefault` is `param.default != inspect.Parameter.empty`. */
  datatype Param = Param(name: string, kind: Kind, hasDefault: bool)

  datatype SignatureError = RequestNotLast

  /** `get_named_kw_args`: the names of the keyword-only parameters, in order. */
  function NamedKwArgs(ps: seq<Param>): (r: seq<string>)
    ensures |r| <= |ps|
    ensures forall n :: n in r <==> exists i :: 0 <= i < |ps| && ps[i].kind == KeywordOnly && ps[i].name == n
    decreases |ps|
  {
    if |ps| == 0 then []
    else
      var rest := NamedKwArgs(ps[1..]);
      assert forall i :: 0 < i < |ps| ==> ps[i] == ps[1..][i - 1];
      if ps[0].kind == KeywordOnly then [ps[0].name] + rest else rest
  }

  /** `get_required_kw_args`: the keyword-only parameters without a default, in order. */
  function RequiredKwArgs(ps: seq<Param>): (r: seq<string>)
    ensures |r| <= |ps|
    ensures forall n :: n in r <==>
      exists i :: 0 <= i < |ps| && ps[i].kind == KeywordOnly && !ps[i].hasDefault && ps[i].name == n
    decreases |ps|
  {
    if |ps| == 0 then []
    else
      var rest := RequiredKwArgs(ps[1..]);
      assert forall i :: 0 < i < |ps| ==> ps[i] == ps[1..][i - 1];
      if ps[0].kind == KeywordOnly && !ps[0].hasDefault then [ps[0].name] + rest else rest
  }

  /** The classifiers scan left to right: the result for a longer list
      extends the result for its prefix, so declaration order is kept. */
  lemma {:induction false} NamedKwArgsAppend(a: seq<Param>, b: seq<Param>)
    ensures NamedKwArgs(a + b) == NamedKwArgs(a) + NamedKwArgs(b)
    ensures RequiredKwArgs(a + b) == RequiredKwArgs(a) + RequiredKwArgs(b)
    decreases |a|
  {
    if |a| == 0 {
      assert a + b == b;
    } else {
      assert (a + b)[1..] == a[1..] + b;
      NamedKwArgsAppend(a[1..], b);
    }
  }

  /** `xs` is `ys` with some elements dropped, order kept. */
  predicate IsSubsequence(xs: seq<string>, ys: seq<string>)
    decreases |ys|
  {
    if |xs| == 0 then true
    else if |ys| == 0 then false
    else if xs[0] == ys[0] then IsSubsequence(xs[1..], ys[1..])
    else IsSubsequence(xs, ys[1..])
  }

  /** The required keyword arguments are the named ones without a default,
      in the same relative order. */
  lemma {:induction false} RequiredAmongNamed(ps: seq<Param>)
    ensures IsSubsequence(RequiredKwArgs(ps), NamedKwArgs(ps))
    decreases |ps|
  {
    if |ps| > 0 {
      RequiredAmongNamed(ps[1..]);
      var req := RequiredKwArgs(ps[1..]);
      var named := NamedKwArgs(ps[1..]);
      if ps[0].kind == KeywordOnly && !ps[0].hasDefault {
        assert ([ps[0].name] + req)[1..] == req;
        assert ([ps[0].name] + named)[1..] == named;
      } else if ps[0].kind == KeywordOnly {
        SubsequenceSkip(req, ps[0].name, named);
      }
    }
  }

  lemma {:induction false} SubsequenceSkip(xs: seq<string>, y: string, ys: seq<string>)
    requires IsSubsequence(xs, ys)
    ensures IsSubsequence(xs, [y] + ys)
    decreases |xs| + |ys| + 1
  {
    assert ([y] + ys)[1..] == ys;
    if |xs| > 0 && xs[0] == y {
      assert |ys| > 0;
      SubsequenceTail(xs, ys);
    }
  }

  /** Dropping the head of a subsequence keeps it a subsequence. */
  lemma {:induction false} SubsequenceTail(xs: seq<string>, ys: seq<string>)
    requires |xs| > 0 && IsSubsequence(xs, ys)
    ensures IsSubsequence(xs[1..], ys)
    decreases |xs| + |ys|
  {
    if xs[0] != ys[0] {
      SubsequenceTail(xs, ys[1..]);
      SubsequenceSkip(xs[1..], ys[0], ys[1..]);
      assert [ys[0]] + ys[1..] == ys;
    } else {
      SubsequenceSkip(xs[1..], ys[0], ys[1..]);
      assert [ys[0]] + ys[1..] == ys;
    }
  }

  /** The required keyword arguments are those of the parameters without a default. */
  function WithoutDefault(ps: seq<Param>): (r: seq<Param>)
    ensures |r| <= |ps|
    decreases |ps|
  {
    if |ps| == 0 then []
    else (if ps[0].hasDefault then [] else [ps[0]]) + WithoutDefault(ps[1..])
  }

  lemma {:induction false} RequiredAreNamedWithoutDefault(ps: seq<Param>)
    ensures RequiredKwArgs(ps) == NamedKwArgs(WithoutDefault(ps))
    decreases |ps|
  {
    if |ps| > 0 {
      RequiredAreNamedWithoutDefault(ps[1..]);
      var head := if ps[0].hasDefault then [] else [ps[0]];
      NamedKwArgsAppend(head, WithoutDefault(ps[1..]));
      if !ps[0].hasDefault {
        assert head[1..] == [];
        assert NamedKwArgs(head) == (if ps[0].kind == KeywordOnly then [ps[0].name] else []);
      }
    }
  }

  /** `has_named_kw_arg`: true at the first keyword-only parameter; the
      function falls off its loop otherwise and returns None, which is falsy. */
  function HasNamedKwArg(ps: seq<Param>): (r: bool)
    ensures r <==> exists i :: 0 <= i < |ps| && ps[i].kind == KeywordOnly
    decreases |ps|
  {
    if |ps| == 0 then false
    else if ps[0].kind == KeywordOnly then true
    else
      assert forall i :: 0 < i < |ps| ==> ps[i] == ps[1..][i - 1];
      HasNamedKwArg(ps[1..])
  }

  /** `has_var_kw_arg`: whether some parameter is `**kw`. */
  function HasVarKwArg(ps: seq<Param>): (r: bool)
    ensures r <==> exists i :: 0 <= i < |ps| && ps[i].kind == VarKeyword
    decreases |ps|
  {
    if |ps| == 0 then false
    else if ps[0].kind == VarKeyword then true
    else
      assert forall i :: 0 < i < |ps| ==> ps[i] == ps[1..][i - 1];
      HasVarKwArg(ps[1..])
  }

  /** Having a named keyword argument is having a non-empty list of them. */
  lemma HasNamedIffSomeNamed(ps: seq<Param>)
    ensures HasNamedKwArg(ps) <==> |NamedKwArgs(ps)| > 0
  {
    if HasNamedKwArg(ps) {
      var i :| 0 <= i < |ps| && ps[i].kind == KeywordOnly;
      assert ps[i].name in NamedKwArgs(ps);
    }
  }

  /** A parameter that may still be bound by position: neither `*args`, a
      keyword-only parameter nor `**kw`. */
  predicate Positional(k: Kind) {
    k != VarPositional && k != KeywordOnly && k != VarKeyword
  }

  /** A parameter named `request` occurs before index `j` (or one was seen
      already, `found`). */
  ghost predicate RequestBefore(ps: seq<Param>, j: int, found: bool) {
    found || exists i :: 0 <= i < j && i < |ps| && ps[i].name == "request"
  }

  /** Some parameter other than `request` that can be bound by position
      follows a `request` parameter. */
  ghost predicate MisplacedRequest(ps: seq<Param>, found: bool) {
    exists j :: 0 <= j < |ps| && ps[j].name != "request" && Positional(ps[j].kind) && RequestBefore(ps, j, found)
  }

  /** The loop of `has_request_arg` from a point where `found` already holds
      what the earlier parameters showed. */
  function RequestScan(ps: seq<Param>, found: bool): (r: Result<bool, SignatureError>)
    ensures r.Failure? <==> MisplacedRequest(ps, found)
    ensures r.Success? ==> (r.value <==> found || exists i :: 0 <= i < |ps| && ps[i].name == "request")
    decreases |ps|
  {
    if |ps| == 0 then Success(found)
    else
      var found' := found || ps[0].name == "request";
      var rest := RequestScan(ps[1..], found');
      ScanShift(ps, found);
      if ps[0].name == "request" then rest
      else if found && Positional(ps[0].kind) then Failure(RequestNotLast)
      else rest
  }

  /** Moving the scan one parameter along. */
  lemma ScanShift(ps: seq<Param>, found: bool)
    requires |ps| > 0
    ensures MisplacedRequest(ps, found) <==>
      (ps[0].name != "request" && Positional(ps[0].kind) && found)
      || MisplacedRequest(ps[1..], found || ps[0].name == "request")
    ensures (exists i :: 0 <= i < |ps| && ps[i].name == "request") <==>
      ps[0].name == "request" || exists i :: 0 <= i < |ps[1..]| && ps[1..][i].name == "request"
  {
    MisplacedFromTail(ps, found);
    MisplacedToTail(ps, found);
    RequestShift(ps);
  }

  /** A misplaced parameter in the tail is misplaced in the whole list. */
  lemma MisplacedFromTail(ps: seq<Param>, found: bool)
    requires |ps| > 0
    ensures MisplacedRequest(ps[1..], found || ps[0].name == "request") ==> MisplacedRequest(ps, found)
  {
    var tail := ps[1..];
    var found' := found || ps[0].name == "request";
    if MisplacedRequest(tail, found') {
      var j :| 0 <= j < |tail| && tail[j].name != "request" && Positional(tail[j].kind) && RequestBefore(tail, j, found');
      if !found' {
        var i :| 0 <= i < j && i < |tail| && tail[i].name == "request";
        assert ps[i + 1].name == "request";
      }
      assert RequestBefore(ps, j + 1, found);
      assert ps[j + 1] == tail[j];
    }
  }

  /** A misplaced parameter past the head is misplaced in the tail. */
  lemma MisplacedToTail(ps: seq<Param>, found: bool)
    requires |ps| > 0
    ensures MisplacedRequest(ps, found) ==>
      (ps[0].name != "request" && Positional(ps[0].kind) && found)
      || MisplacedRequest(ps[1..], found || ps[0].name == "request")
  {
    var tail := ps[1..];
    var found' := found || ps[0].name == "request";
    if MisplacedRequest(ps, found) {
      var j :| 0 <= j < |ps| && ps[j].name != "request" && Positional(ps[j].kind) && RequestBefore(ps, j, found);
      if j > 0 {
        if !found' {
          var i :| 0 <= i < j && i < |ps| && ps[i].name == "request";
          assert i > 0 && tail[i - 1].name == "request";
          assert RequestBefore(tail, j - 1, found');
        }
        assert tail[j - 1] == ps[j];
      }
    }
  }

  /** A parameter named `request` is the head or lies in the tail. */
  lemma RequestShift(ps: seq<Param>)
    requires |ps| > 0
    ensures (exists i :: 0 <= i < |ps| && ps[i].name == "request") <==>
      ps[0].name == "request" || exists i :: 0 <= i < |ps[1..]| && ps[1..][i].name == "request"
  {
    var tail := ps[1..];
    if exists i :: 0 <= i < |ps| && ps[i].name == "request" {
      var i :| 0 <= i < |ps| && ps[i].name == "request";
      if i > 0 {
        assert tail[i - 1].name == "request";
      }
    }
    if exists i :: 0 <= i < |tail| && tail[i].name == "request" {
      var i :| 0 <= i < |tail| && tail[i].name == "request";
      assert ps[i + 1].name == "request";
    }
  }

  /** `has_request_arg`: whether a parameter is named `request`; a
      `ValueError` when a parameter that can be bound by position follows it. */
  function HasRequestArg(ps: seq<Param>): (r: Result<bool, SignatureError>)
    ensures r.Failure? <==> exists i, j :: 0 <= i < j < |ps| && ps[i].name == "request"
                                           && ps[j].name != "request" && Positional(ps[j].kind)
    ensures r.Success? ==> (r.value <==> exists i :: 0 <= i < |ps| && ps[i].name == "request")
  {
    MisplacedFromStart(ps);
    RequestScan(ps, false)
  }

  lemma MisplacedFromStart(ps: seq<Param>)
    ensures MisplacedRequest(ps, false) <==> exists i, j :: 0 <= i < j < |ps| && ps[i].name == "request"
                                                            && ps[j].name != "request" && Positional(ps[j].kind)
  {
    if MisplacedRequest(ps, false) {
      var j :| 0 <= j < |ps| && ps[j].name != "request" && Positional(ps[j].kind) && RequestBefore(ps, j, false);
      var i :| 0 <= i < j && i < |ps| && ps[i].name == "request";
      assert 0 <= i < j < |ps|;
    }
    if exists i, j :: 0 <= i < j < |ps| && ps[i].name == "request" && ps[j].name != "request" && Positional(ps[j].kind) {
      var i, j :| 0 <= i < j < |ps| && ps[i].name == "request" && ps[j].name != "request" && Positional(ps[j].kind);
      assert RequestBefore(ps, j, false);
    }
  }

  /** `request` last among the parameters that can be bound by position (it
      may be followed by `*args`, keyword-only parameters and `**kw`) is accepted. */
  lemma RequestLastAccepted(ps: seq<Param>, rest: seq<Param>)
    requires forall j :: 0 <= j < |rest| ==> !Positional(rest[j].kind)
    ensures HasRequestArg(ps + [Param("request", PositionalOrKeyword, false)] + rest).Success? <==>
      HasRequestArg(ps).Success?
  {
    var all := ps + [Param("request", PositionalOrKeyword, false)] + rest;
    if HasRequestArg(all).Failure? {
      var i, j :| 0 <= i < j < |all| && all[i].name == "request" && all[j].name != "request" && Positional(all[j].kind);
      assert j < |ps|;
      assert ps[j] == all[j];
      assert ps[i] == all[i];
    }
    if HasRequestArg(ps).Failure? {
      var i, j :| 0 <= i < j < |ps| && ps[i].name == "request" && ps[j].name != "request" && Positional(ps[j].kind);
      assert all[i] == ps[i] && all[j] == ps[j];
    }
  }
}

=== FILE: text.dfy ===
/** String helpers the ORM builds its SQL with: Python's `str.join`, the
    back-quoting of identifiers, the `?,?,...` placeholder list
    (`create_args_string`) and the rewrite of `?` into `%s`,
    the marker the database driver expects. */
module Text {

  /** Number of occurrences of `c` in `s`. */
  function Occurrences(c: char, s: string): nat
    decreases |s|
  {
    if |s| == 0 then 0 else (if s[0] == c then 1 else 0) + Occurrences(c, s[1..])
  }

  lemma {:induction false} NoOccurrences(c: char, s: string)
    requires c !in s
    ensures Occurrences(c, s) == 0
    decreases |s|
  {
    if |s| > 0 {
      NoOccurrences(c, s[1..]);
    }
  }

  lemma {:induction false} AbsentWhenNoOccurrences(c: char, s: string)
    requires Occurrences(c, s) == 0
    ensures c !in s
    decreases |s|
  {
    if |s| > 0 {
      AbsentWhenNoOccurrences(c, s[1..]);
      assert s == [s[0]] + s[1..];
    }
  }

  lemma {:induction false} OccurrencesConcat(c: char, a: string, b: string)
    ensures Occurrences(c, a + b) == Occurrences(c, a) + Occurrences(c, b)
    decreases |a|
  {
    if |a| == 0 {
      assert a + b == b;
    } else {
      assert (a + b)[1..] == a[1..] + b;
      OccurrencesConcat(c, a[1..], b);
    }
  }

  /** Text free of `c` on both sides adds no occurrence of `c`. */
  lemma OccurrencesBetween(c: char, a: string, m: string, b: string)
    requires c !in a && c !in b
    ensures Occurrences(c, a + m + b) == Occurrences(c, m)
  {
    NoOccurrences(c, a);
    NoOccurrences(c, b);
    OccurrencesConcat(c, a, m);
    OccurrencesConcat(c, a + m, b);
  }

  /** Python's `sep.join(parts)`. */
  function Join(sep: string, parts: seq<string>): string
    decreases |parts|
  {
    if |parts| == 0 then ""
    else if |parts| == 1 then parts[0]
    else parts[0] + sep + Join(sep, parts[1..])
  }

  /** Total number of occurrences of `c` over all parts. */
  function OccurrencesIn(c: char, parts: seq<string>): nat
    decreases |parts|
  {
    if |parts| == 0 then 0 else Occurrences(c, parts[0]) + OccurrencesIn(c, parts[1..])
  }

  /** Joining with a separator free of `c` adds no occurrence of `c`. */
  lemma {:induction false} OccurrencesJoin(c: char, sep: string, parts: seq<string>)
    requires c !in sep
    ensures Occurrences(c, Join(sep, parts)) == OccurrencesIn(c, parts)
    decreases |parts|
  {
    if |parts| == 1 {
      assert OccurrencesIn(c, parts[1..]) == 0;
    } else if |parts| >= 2 {
      var rest := Join(sep, parts[1..]);
      OccurrencesJoin(c, sep, parts[1..]);
      assert Join(sep, parts) == parts[0] + sep + rest;
      OccurrencesConcat(c, parts[0], sep);
      OccurrencesConcat(c, parts[0] + sep, rest);
      NoOccurrences(c, sep);
    }
  }

  lemma {:induction false} OccurrencesInNone(c: char, parts: seq<string>)
    requires forall i :: 0 <= i < |parts| ==> c !in parts[i]
    ensures OccurrencesIn(c, parts) == 0
    decreases |parts|
  {
    if |parts| > 0 {
      NoOccurrences(c, parts[0]);
      OccurrencesInNone(c, parts[1..]);
    }
  }

  lemma {:induction false} OccurrencesInOnce(c: char, parts: seq<string>)
    requires forall i :: 0 <= i < |parts| ==> Occurrences(c, parts[i]) == 1
    ensures OccurrencesIn(c, parts) == |parts|
    decreases |parts|
  {
    if |parts| > 0 {
      OccurrencesInOnce(c, parts[1..]);
    }
  }

  /** Appending one part to a non-empty list appends the separator and the part. */
  lemma {:induction false} JoinSnoc(sep: string, parts: seq<string>, last: string)
    requires |parts| > 0
    ensures Join(sep, parts + [last]) == Join(sep, parts) + sep + last
    decreases |parts|
  {
    if |parts| == 1 {
      assert (parts + [last])[1..] == [last];
    } else {
      assert (parts + [last])[1..] == parts[1..] + [last];
      JoinSnoc(sep, parts[1..], last);
    }
  }

  /** An identifier between back-quotes, as the ORM writes table and column names. */
  function Quote(s: string): string {
    "`" + s + "`"
  }

  /** Back-quotes add no character other than the back-quote itself. */
  lemma QuoteKeepsOccurrences(n: string)
    ensures forall c :: c != '`' ==> Occurrences(c, Quote(n)) == Occurrences(c, n)
  {
    forall c | c != '`'
      ensures Occurrences(c, Quote(n)) == Occurrences(c, n)
    {
      OccurrencesConcat(c, "`", n);
      OccurrencesConcat(c, "`" + n, "`");
    }
  }

  /** Every identifier of `names`, back-quoted, in order; quoting adds no
      character but the back-quote, so no placeholder either. */
  function QuoteAll(names: seq<string>): (r: seq<string>)
    ensures |r| == |names|
    ensures forall i :: 0 <= i < |names| ==> r[i] == Quote(names[i])
    ensures forall c :: c != '`' ==> OccurrencesIn(c, r) == OccurrencesIn(c, names)
    decreases |names|
  {
    if |names| == 0 then []
    else
      var rest := QuoteAll(names[1..]);
      QuoteKeepsOccurrences(names[0]);
      assert ([Quote(names[0])] + rest)[1..] == rest;
      [Quote(names[0])] + rest
  }

  /** `num` copies of the placeholder, as a list before joining. */
  function Marks(num: int): seq<string> {
    if num <= 0 then [] else seq(num, _ => "?")
  }

  lemma {:induction false} ArgsStringLength(num: int)
    ensures |Join(",", Marks(num))| == (if num <= 0 then 0 else 2 * num - 1)
    decreases num
  {
    if num >= 2 {
      ArgsStringLength(num - 1);
      assert Marks(num)[1..] == Marks(num - 1);
    } else if num == 1 {
      assert Marks(1) == ["?"];
    }
  }

  lemma {:induction false} ArgsStringMarks(num: int)
    ensures Occurrences('?', Join(",", Marks(num))) == (if num <= 0 then 0 else num)
    decreases num
  {
    if num >= 2 {
      ArgsStringMarks(num - 1);
      assert Marks(num)[1..] == Marks(num - 1);
      var rest := Join(",", Marks(num - 1));
      assert Join(",", Marks(num)) == "?," + rest;
      OccurrencesConcat('?', "?,", rest);
    } else if num == 1 {
      assert Marks(1) == ["?"];
    }
  }

  lemma {:induction false} ArgsStringAlternates(num: int)
    ensures forall i :: 0 <= i < |Join(",", Marks(num))| ==>
      Join(",", Marks(num))[i] == (if i % 2 == 0 then '?' else ',')
    decreases num
  {
    if num >= 2 {
      ArgsStringAlternates(num - 1);
      assert Marks(num)[1..] == Marks(num - 1);
      var rest := Join(",", Marks(num - 1));
      var r := "?" + "," + rest;
      assert Join(",", Marks(num)) == r;
      forall i | 0 <= i < |r|
        ensures r[i] == (if i % 2 == 0 then '?' else ',')
      {
        if i >= 2 {
          assert r[i] == rest[i - 2];
          assert rest[i - 2] == (if (i - 2) % 2 == 0 then '?' else ',');
          assert (i - 2) % 2 == i % 2;
        }
      }
    } else if num == 1 {
      assert Marks(1) == ["?"];
    }
  }

  /** `create_args_string(num)`: `num` question marks separated by commas;
      empty when `num` is zero or negative (an empty `range`). */
  function CreateArgsString(num: int): (r: string)
    ensures num <= 0 ==> r == ""
    ensures num >= 1 ==> |r| == 2 * num - 1
    ensures Occurrences('?', r) == (if num <= 0 then 0 else num)
    ensures forall i :: 0 <= i < |r| ==> r[i] == (if i % 2 == 0 then '?' else ',')
  {
    ArgsStringLength(num);
    ArgsStringMarks(num);
    ArgsStringAlternates(num);
    Join(",", Marks(num))
  }

  /** `sql.replace('?', '%s')`: every question mark becomes the driver's marker. */
  function ToDriverPlaceholders(s: string): (r: string)
    ensures '?' !in r
    ensures |r| == |s| + Occurrences('?', s)
    decreases |s|
  {
    if |s| == 0 then ""
    else (if s[0] == '?' then "%s" else [s[0]]) + ToDriverPlaceholders(s[1..])
  }

  /** The inverse direction: every `%s` back into `?`, everything else kept. */
  function FromDriverPlaceholders(r: string): string
    decreases |r|
  {
    if |r| == 0 then ""
    else if |r| >= 2 && r[0] == '%' && r[1] == 's' then "?" + FromDriverPlaceholders(r[2..])
    else [r[0]] + FromDriverPlaceholders(r[1..])
  }

  /** The rewrite changes nothing but the question marks: on text that holds no
      `%` of its own, rewriting back recovers the original exactly. */
  lemma {:induction false} DriverPlaceholdersRoundTrip(s: string)
    requires '%' !in s
    ensures FromDriverPlaceholders(ToDriverPlaceholders(s)) == s
    decreases |s|
  {
    if |s| > 0 {
      DriverPlaceholdersRoundTrip(s[1..]);
      var tail := ToDriverPlaceholders(s[1..]);
      if s[0] == '?' {
        assert ToDriverPlaceholders(s) == "%s" + tail;
        assert ("%s" + tail)[2..] == tail;
      } else {
        assert ToDriverPlaceholders(s) == [s[0]] + tail;
        assert ([s[0]] + tail)[1..] == tail;
      }
    }
  }

  /** Text without question marks reaches the driver unchanged. */
  lemma {:induction false} DriverPlaceholdersKeepPlainText(s: string)
    requires '?' !in s
    ensures ToDriverPlaceholders(s) == s
    decreases |s|
  {
    if |s| > 0 {
      assert s == [s[0]] + s[1..];
      DriverPlaceholdersKeepPlainText(s[1..]);
    }
  }

  /** The rewrite works piece by piece, so clauses can be rewritten separately. */
  lemma {:induction false} DriverPlaceholdersConcat(a: string, b: string)
    ensures ToDriverPlaceholders(a + b) == ToDriverPlaceholders(a) + ToDriverPlaceholders(b)
    decreases |a|
  {
    if |a| > 0 {
      assert (a + b)[1..] == a[1..] + b;
      DriverPlaceholdersConcat(a[1..], b);
    } else {
      assert a + b == b;
    }
  }
}

=== FILE: wrappers.dfy ===
/** Failure-compatible wrappers used throughout the model: an optional value
    (Python's `None` or a value) and a result that is either a value or the
    error the Python code would raise or return. */
module Wrappers {

  datatype Option<+T> = None | Some(value: T) {

    /** The value, or `default` when there is none. */
    function GetOr(default: T): T {
      match this
      case Some(v) => v
      case None => default
    }
  }

  datatype Result<+T, +E> = Success(value: T) | Failure(error: E) {

    predicate IsFailure() {
      Failure?
    }

    function PropagateFailure<U>(): Result<U, E>
      requires Failure?
    {
      Failure(error)
    }

    function Extract(): T
      requires Success?
    {
      value
    }
  }
}
